=== FILE: README.md ===
# dailymath core, modelled in Dafny

This project models the decision logic of dailymath, a site that turns
uploaded contest papers into a daily maths question. Every operation is a
pure function over immutable data. The database is a set of row sequences: a
row id is a position, `createRow` appends, `getFirstRow` is the first
matching row (`Store.FirstIndex`) and `listRows` is a filter
(`Store.Filter`). Everything the code reaches outside itself is a parameter:

- the AI model is an oracle from page id to the parsed JSON object;
- the clock is an ISO timestamp or a local calendar date;
- SHA-256, `encodeURIComponent` and the markdown renderer are functions.

The modules follow the source files.

- `PageProcessing` and `Reconciler` (src/lib/server/pageProcessing.ts)
  - The validator of the model's answer.
  - The per-entry upsert keyed on (competitionId, test, questionNumber). A
    questions page writes the question columns; an answers page writes the
    answer columns.
  - One `processQueue` step: it moves the `nextPage` cursor and the upload
    `state`, and sets or clears the process-wide idle flag.
  - The fast and slow scheduler ticks, and `notifyOfNewUpload`.
- `UsageLimiter` (src/lib/server/ai.ts)
  - The per-model cache of {date, row id}, rebuilt when the date changes.
  - The gate: a bounded `+1` whose ceiling is the daily limit (flash 110,
    pro 20) + 1.
  - The unbounded `incrementAIGenerationCount`. Its only pro call comes after
    an explanation is generated (src/routes/api/v1/question/[questionId]/request-ai-explanation/+server.ts:35).
    No code runs the pro gate, so no pro entry is ever cached, and without
    one the increment returns at once (ai.ts:75-78). The pro tally therefore
    never changes in any reachable state.
- `Selections` (src/routes/api/v1/selections/+server.ts): `POST` with its
  400 and 404 guards.
  - A first pass creates one question row per distinct question number.
  - A second pass creates one answer row per answer selection.
  - Page numbers are 1-based.
  - A 404 raised in the second pass keeps every question row of the first
    pass and the answer rows written before the first answer whose number
    resolves to no row.
- `DailyQuestion` (src/lib/server/dailyQuestion.ts)
  - The day seed `year-month-day-test`.
  - The lowercase hex rendering of the digest, and the value of its first
    eight hex digits.
  - The two-stage modulo choice: a competition first, then one of its
    questions.
- `Formatting` (src/lib/formatting.ts)
  - The `$$…$$` pass, then the `$…$` pass, each a leftmost scan with
    numbered placeholders.
  - The markdown step and its `<br>` fallback.
  - The restore pass.
- `Competition` (src/lib/competition.ts): the label
  `<year> <division> <Location>`.
- `Text`: JavaScript's decimal printing of integers, with its parser.
  `Store`: the row types and the abstract store.

### Where the model follows the code

- **Cursor after a failed page.** When `processSinglePage` returns null, the
  code (pageProcessing.ts:229-233) moves the cursor back one page when it is
  positive, onto the page before the one that failed. That page was already
  processed, so it is processed again.
  - The comment at pageProcessing.ts:197-201 says the cursor is incremented
    before processing. The code increments it only after a page succeeds
    (pageProcessing.ts:238-240), and the model follows the code.
  - Processing a page again with the same answer leaves the questions table
    as it was (`PageProcessing.ReprocessingIsIdempotent`).
- **Cursor after the last page.** After the last page succeeds, the code
  marks the upload processed and leaves `nextPage` on the last page
  (pageProcessing.ts:239-244).
- **Daily limit.** The constants are called daily limits. The gate's
  ceiling is limit + 1, so a fresh day lets 111 flash calls or 21 pro calls
  through (`UsageLimiter.DailyAllowance`).

## Model

| member | source | states |
|---|---|---|
| Store.FirstIndex | src/lib/server/database.ts:74-90 | the position of the first row that satisfies the query, and None exactly when no row does |
| Store.Filter | src/lib/server/database.ts:60-72 | the result holds only matching rows of the table, and every matching row is in it |
| Store.FilterCounts | src/lib/server/database.ts:60-72 | each matching row appears in the result as often as in the table, and the result holds no row more often than the table |
| Store.FilterAppend | src/lib/server/database.ts:60-72 | the result keeps table order: the matches of a concatenation are the matches of the first part followed by those of the second |
| Competition.LocationLabel | src/lib/competition.ts:1-4 | each location is shown as its stored code with the first letter capitalised: "regional" as "Regional", "state" as "State" |
| Competition.FormatRoundTrip | src/lib/competition.ts:6-7 | the label is year, space, division verbatim, space, location label: reading it back yields the same competition |
| Competition.FormatInjective | src/lib/competition.ts:6-7 | two different competitions never get the same label |
| Text.IntRoundTrip | src/lib/competition.ts:7 | the decimal printing of an integer parses back to that integer |
| UsageLimiter.DateKey | src/lib/server/ai.ts:26 | the date key is the prefix of the timestamp before its first 'T' |
| UsageLimiter.DateKeyOfTimestamp | src/lib/server/ai.ts:26 | for a timestamp "YYYY-MM-DDT…" the key is the calendar date "YYYY-MM-DD" |
| UsageLimiter.Refresh | src/lib/server/ai.ts:27-53 | a fresh entry is kept as it is; a stale or missing one is rebuilt on today's existing usage row, or on a new row with 0 uses; other models' entries are untouched |
| UsageLimiter.IsAutoGenerationAllowed | src/lib/server/ai.ts:25-69 | after the refresh, the gate is open exactly when the cached row exists and is below limit + 1; an open gate adds one use to that row, a closed one changes no row |
| UsageLimiter.GateRespectsCeiling | src/lib/server/ai.ts:55-62 | the gate never lifts a row's uses above limit + 1 (or above its earlier count, if that was higher) |
| UsageLimiter.FlashGateLeavesProTally | src/lib/server/ai.ts:71-78 | from a state without a pro entry, any number of flash gate calls caches no pro entry, and a pro increment afterwards changes nothing |
| UsageLimiter.IncrementAIGenerationCount | src/lib/server/ai.ts:71-90 | without a cache entry nothing changes; otherwise the cached row, stale or not, gets one more use with no ceiling and nothing else changes |
| UsageLimiter.FreshAllowance | src/lib/server/ai.ts:55-68 | with today's row cached at u uses, n calls open the gate exactly min(n, limit + 1 - u) times |
| UsageLimiter.DailyAllowance | src/lib/server/ai.ts:11-68 | on a day without a usage row, n calls open the gate exactly min(n, limit + 1) times: 111 for gemini-2.5-flash, 21 for gemini-2.5-pro |
| Reconciler.ApplyPatch | src/lib/server/pageProcessing.ts:150-180 | a question update writes questionContent, questionPageId and includesDiagram only; an answer update writes answerContent and answerPageId only; the key and every other column stay |
| Reconciler.Upsert | src/lib/server/pageProcessing.ts:143-165 | with a row for the key, only the first such row changes, it becomes that row with the entry's columns written and every other column kept, and no row is added; without one, exactly one row with the key and the entry's columns is appended |
| Reconciler.LastWriterWins | src/lib/server/pageProcessing.ts:140-192 | after a page, the row for each key it names holds the columns of the last entry with that key |
| Reconciler.UpdatesInPlace | src/lib/server/pageProcessing.ts:140-192 | when every key already has a row, the page adds no row and rewrites each row with its last writer's columns |
| Reconciler.Idempotent | src/lib/server/pageProcessing.ts:140-192 | applying the same page result a second time changes nothing and adds no row |
| Reconciler.UpsertAllKeepsUnique | src/lib/server/pageProcessing.ts:144-164 | a table with at most one row per key still has at most one row per key afterwards |
| Reconciler.QuestionThenAnswer | src/lib/server/pageProcessing.ts:140-192 | a questions page and then an answers page for the same key leave one row holding both, at most one row more than before |
| PageProcessing.Validate | src/lib/server/pageProcessing.ts:132-136 | rejected exactly when pageType is falsy, or a typed page lacks test, or a questions or answers page lacks its list; an accepted response is returned unchanged |
| PageProcessing.QuestionWrites | src/lib/server/pageProcessing.ts:142-166 | one question-column write per entry, in order, with the entry's number, content and diagram flag and the page id |
| PageProcessing.AnswerWrites | src/lib/server/pageProcessing.ts:169-191 | one answer-column write per entry, in order, with the entry's number and content and the page id |
| PageProcessing.PageWrites | src/lib/server/pageProcessing.ts:140-194 | a page that is neither a questions page nor an answers page writes nothing |
| PageProcessing.ProcessSinglePage | src/lib/server/pageProcessing.ts:79-195 | a closed gate (without override), an unparsable answer or a rejected answer gives null and writes nothing; an override leaves the limiter alone; through an open or bypassed gate, the result is exactly the validation of the model's answer, and an accepted answer leaves the questions table at its reconciliation (per-entry upserts on a questions or answers page, nothing otherwise) |
| PageProcessing.GateDenialIgnoresExtractor | src/lib/server/pageProcessing.ts:90-99 | a closed gate answers before the page is fetched: the outcome does not depend on the model |
| PageProcessing.ReprocessingIsIdempotent | src/lib/server/pageProcessing.ts:79-194 | for any override flags on the two runs and any limiter state or clock at the second run (as when the queue steps back after a failed page), processing a page again with the same model answer leaves the questions table as the first run left it, as long as the gate let the first run through |
| PageProcessing.StepCursor | src/lib/server/pageProcessing.ts:229-244 | failure moves the cursor back one, unless it is 0; success moves it forward before the last page and marks the upload processed at the last page; a cursor on a page stays on a page |
| PageProcessing.ProcessQueue | src/lib/server/pageProcessing.ts:203-251 | with no processing upload only the idle flag is set; otherwise only the first processing upload changes, and its pages, id and competition stay |
| PageProcessing.ExhaustedUploadCompletes | src/lib/server/pageProcessing.ts:217-222 | a cursor at or past the page count marks the upload processed, with no extraction and the idle flag untouched |
| PageProcessing.PageStep | src/lib/server/pageProcessing.ts:224-249 | a failed page moves the cursor back one (not below 0), sets idle and writes no question; a processed page advances the cursor or completes the upload and clears idle |
| PageProcessing.ValidPageAdvances | src/lib/server/pageProcessing.ts:79-249 | a page the gate lets through and the model answers validly is reconciled into the questions table, advances the cursor (or completes the upload at the last page) and keeps the processor awake |
| PageProcessing.Progress | src/lib/server/pageProcessing.ts:203-251 | every step either lowers the outstanding work (pages left plus final state changes) or parks the processor without writing a question |
| PageProcessing.FastTick | src/lib/server/pageProcessing.ts:256-266 | while idle the fast tick does nothing; otherwise it runs one queue step |
| PageProcessing.SlowTick | src/lib/server/pageProcessing.ts:268-286 | the processor is idle afterwards exactly when it was idle and no upload is processing; no table changes |
| PageProcessing.NotifyOfNewUpload | src/lib/server/pageProcessing.ts:289-292 | the processor is awake afterwards and nothing else changes |
| PageProcessing.NotifyThenFastTick | src/lib/server/pageProcessing.ts:256-292 | after a notification the next fast tick runs one queue step whatever the idle flag was; with no processing upload it only sets the processor idle again |
| PageProcessing.SlowTickRearms | src/lib/server/pageProcessing.ts:256-286 | a slow tick that finds work makes the next fast tick process the first processing upload |
| Selections.PageAt | src/routes/api/v1/selections/+server.ts:48 | page number n names pages[n - 1], defined exactly for 1 <= n <= page count |
| Selections.QuestionPass | src/routes/api/v1/selections/+server.ts:40-60 | the first pass appends one row per first occurrence of a question number, in order, and maps exactly the batch's question numbers to those new rows |
| Selections.FirstOccurrencesCover | src/routes/api/v1/selections/+server.ts:41-60 | the first occurrences carry exactly the question numbers of the question selections |
| Selections.FirstOccurrencesDistinct | src/routes/api/v1/selections/+server.ts:41-60 | no question number is created twice |
| Selections.AnswerPass | src/routes/api/v1/selections/+server.ts:62-97 | the second pass fails exactly when some answer's number resolves to no row; otherwise it appends one row per answer selection, in order, linked to the resolved row and its 1-based page |
| Selections.Post | src/routes/api/v1/selections/+server.ts:7-100 | a falsy uploadId, test or selections gives 400, an unknown upload 404, an upload without pages 400, and an unknown competition of an upload with pages 404, all without writes; past the guards, the question rows of the first pass are written and the answer rows are the second pass's, which on a 404 are those written before the first unresolved answer, and the answer is 200 exactly when every answer selection's number resolves, 404 otherwise; rows are only ever appended |
| Selections.AnswerPassStopsAtFirstMiss | src/routes/api/v1/selections/+server.ts:62-80 | when answer m is the first whose number resolves to no row, the pass has not failed before m, and after m it has failed and holds exactly the answer rows written before m |
| Selections.PostCreatesRows | src/routes/api/v1/selections/+server.ts:36-97 | a 200 adds one question row per distinct question number in first-occurrence order, each on its 1-based page, and one answer row per answer selection |
| Selections.PostAnswerRows | src/routes/api/v1/selections/+server.ts:62-97 | on a 200 the answer rows follow the answer selections in order, each with the competition, the 1-based page and region of its selection, and a question id naming a row with the request's test and the selection's question number |
| Selections.AnswerLinksToBatchQuestion | src/routes/api/v1/selections/+server.ts:40-80 | an answer whose number has a question selection anywhere in the batch, even later, links to the row this request created |
| DailyQuestion.DaySeedInjective | src/lib/server/dailyQuestion.ts:7-11 | the seed `year-month-day-test` (1-based month, no padding) determines the date and the test |
| DailyQuestion.HexOf | src/lib/server/dailyQuestion.ts:13-14 | the hex string has two digits per byte, each 0-9 or a lowercase a-f |
| DailyQuestion.ByteHexDigits | src/lib/server/dailyQuestion.ts:14 | each byte is its high and low hex digit, the first zero-padded |
| DailyQuestion.HashIntIsBigEndian | src/lib/server/dailyQuestion.ts:12-15 | the first eight hex digits read the first four digest bytes big-endian, a value below 2^32 |
| DailyQuestion.QuestionSeedInjective | src/lib/server/dailyQuestion.ts:25 | under one day seed, the question seed determines the competition's year, division and location |
| DailyQuestion.PickCompetition | src/lib/server/dailyQuestion.ts:12-22 | no competition exactly when none is active; otherwise the active competition at position (first four digest bytes of the day seed, read big-endian) modulo the number of active competitions |
| DailyQuestion.GetDailyQuestion | src/lib/server/dailyQuestion.ts:5-41 | an error exactly when no competition is active or the chosen one has no question for the test; otherwise the competition of the day and, among its questions for that test, the one at position (first four digest bytes of the question seed, read big-endian) modulo their number |
| Formatting.DisplayCloseComplete | src/lib/formatting.ts:16 | the scanner finds a `$$…$$` match at a position exactly when the pattern matches there, closing at the first `$` |
| Formatting.InlineCloseComplete | src/lib/formatting.ts:25 | the scanner finds a `$…$` match exactly when the pattern matches, the body holding no `$` and no newline |
| Formatting.DisplaySplitRoundTrip | src/lib/formatting.ts:16 | the display scan loses nothing: with the delimiters put back the pieces give the text |
| Formatting.InlineSplitRoundTrip | src/lib/formatting.ts:25 | the inline scan loses nothing: with the delimiters put back the pieces give the text |
| Formatting.DisplayBodiesPlain | src/lib/formatting.ts:16 | no display body holds a `$` |
| Formatting.InlineBodiesPlain | src/lib/formatting.ts:25 | no inline body holds a `$` or a newline |
| Formatting.TrimStart | src/lib/formatting.ts:18 | trimming the start drops exactly the leading white space: the result is a suffix of the text that starts with no white space |
| Formatting.TrimEnd | src/lib/formatting.ts:18 | trimming the end drops exactly the trailing white space: the result is a prefix of the text that ends with no white space |
| Formatting.TrimEmptyIff | src/lib/formatting.ts:27 | trim gives '' exactly for a body made only of white space |
| Formatting.RenderRecords | src/lib/formatting.ts:16-33 | each pass records one replacement per swapped body, in scan order, numbered consecutively from its counter, holding the encoded trimmed body |
| Formatting.BlankInlineVerbatim | src/lib/formatting.ts:25-28 | a blank inline body is kept with its delimiters and takes no number; scanning resumes after its closing `$` |
| Formatting.InlineMatchNumbered | src/lib/formatting.ts:25-33 | a non-blank inline body becomes the current inline placeholder and its record, and the rest is numbered from the next counter |
| Formatting.PassesRecordDisplay | src/lib/formatting.ts:14-21 | the recorded list starts with every display body, empty ones included, as display records numbered 0, 1, 2… left to right |
| Formatting.PassesRecordInline | src/lib/formatting.ts:23-33 | after the display records come the inline records of the display pass's output, numbered from 0 |
| Formatting.PlaceholderNotInOther | src/lib/formatting.ts:17-29 | no placeholder occurs inside a different placeholder |
| Formatting.PlaceholderInjective | src/lib/formatting.ts:17-29 | different kinds or counters give different placeholders |
| Formatting.PassesDistinct | src/lib/formatting.ts:14-33 | no two recorded replacements share a placeholder |
| Formatting.PlaceholderPlain | src/lib/formatting.ts:17-29 | a placeholder holds no `$` and no newline, so the inline pass cannot cut into it |
| Formatting.SingleDisplayPasses | src/lib/formatting.ts:14-33 | a lone `$$b$$` records one display element and nothing inline: the display pass runs first |
| Formatting.ReplaceAllAbsent | src/lib/formatting.ts:47-48 | a global replace of a pattern that does not occur changes nothing |
| Formatting.ReplaceAllSelf | src/lib/formatting.ts:47-48 | replacing a pattern by itself gives back the text, so the replace keeps every character it does not match |
| Formatting.RestoreAbsent | src/lib/formatting.ts:45-49 | restoring text that holds none of the placeholders changes nothing |
| Formatting.RestoreParagraph | src/lib/formatting.ts:46-49 | a paragraph holding only a placeholder is replaced as a whole by the element, `<p>` form first |
| Formatting.BreakLinesPlain | src/lib/formatting.ts:42 | the fallback leaves no newline, and leaves text without newlines as it is |
| Formatting.BreakLinesInverse | src/lib/formatting.ts:42 | mapping each `<br>` of the fallback back to a newline gives the text, when it had no `<br>` of its own |
| Formatting.FormatMarkdownWithLatex | src/lib/formatting.ts:3-4 | empty input gives '' |
| Formatting.NoMathPassesThrough | src/lib/formatting.ts:3-52 | text without `$` is the markdown rendering, or the line-broken text when markdown throws |
| Formatting.SingleDisplayFallback | src/lib/formatting.ts:37-49 | when markdown throws, a lone `$$b$$` comes back as its display element holding the encoded trimmed body |
| Formatting.SingleDisplayParagraph | src/lib/formatting.ts:35-49 | when markdown wraps the placeholder in a paragraph and the placeholder does not occur in the element, the `<p>` form is replaced first and the element stands alone |

## Left out

- The Gemini call, prompt text and response schema (pageProcessing.ts:10-77, 101-119) are foreign and non-deterministic. The model's answer is the oracle `extract`: None stands for an empty or unparsable response.
- Fetching the page image and the model call (pageProcessing.ts:99-119) sit outside any `try`. When either throws, the error escapes `processSinglePage` and `processQueue`. The gate has then already counted a use, and the cursor and idle flag stay as they were. This thrown path is not modelled: `extract` returning None stands for a response that arrives but cannot be used.
- The fire-and-forget gate call on override (pageProcessing.ts:85-89) is asynchronous and its errors are swallowed. Override simply bypasses the gate and leaves the limiter unchanged.
- Store calls never fail other than by finding no row. In the source, a failing `updateRow` falls into the same catch as a missing row and creates a second row; that path is not modelled.
- In the selections route, the 500 responses for failed creates and a body that is not JSON are not modelled.
- Field values come in as typed data. A JSON value of the wrong type (a string where a list is expected, a missing entry number) and `null` versus `undefined` both collapse to Option.
- `listRows` returns every matching row. The page size the database applies when no limit is given is not modelled.
- Cron cadence, the interleaving of asynchronous ticks and the read-then-write race between concurrent upserts are concurrency concerns. Each operation is one sequential step.
- Logging is left out.
- SHA-256, `encodeURIComponent` and `marked` (with its options) are function parameters with no properties assumed.
- The current time is a parameter: an ISO timestamp for the limiter, the server's local date for the daily question.
- Text.NatToDecimal: prints integers as plain digits. JavaScript switches to exponent notation from 10^21, which is not modelled.
- DailyQuestion.DaySeedInjective: proved only for years from 0 on, because a negative year's minus sign coincides with the separator.
- DailyQuestion.QuestionSeedInjective: proved only for years from 0 on, for the same reason.
- Formatting.FormatMarkdownWithLatex: its contract covers only the empty input. The rest of its behaviour is stated by the Passes, Restore and fallback lemmas and by the whole-pipeline lemmas on `$`-free text and on a lone `$$b$$`.
- Formatting.Render, Formatting.Passes and Formatting.Restore: they have no contracts of their own and are described by RenderRecords, PassesRecordDisplay, PassesRecordInline, PassesDistinct, RestoreAbsent and RestoreParagraph.
- Members that carry no contract of their own are described by the lemmas named here:
  - Competition.FormatCompetition (competition.ts:6-7): by FormatRoundTrip and FormatInjective.
  - DailyQuestion.DaySeed (dailyQuestion.ts:7-11): by DaySeedInjective.
  - DailyQuestion.HashInt (dailyQuestion.ts:15): by HashIntIsBigEndian.
  - Reconciler.UpsertAll (the entry loops at pageProcessing.ts:144 and 169): by LastWriterWins, UpdatesInPlace, Idempotent, UpsertAllKeepsUnique and QuestionThenAnswer.
  - Formatting.Trim (formatting.ts:18, 27, 30): by TrimStart, TrimEnd and TrimEmptyIff.
  - Formatting.ReplaceAll (formatting.ts:47-48): by ReplaceAllAbsent and ReplaceAllSelf.
  - Formatting.BreakLines (formatting.ts:42): by BreakLinesPlain and BreakLinesInverse.
- Formatting.ReplaceAll: treats the replacement as literal text. JavaScript's `replace` expands `$&`, `$1` and similar patterns in a string replacement. Elements hold `$` only if `encode` leaves one in, and the real `encodeURIComponent` escapes `$`. The model assumes no property of `encode`, so for an `encode` that keeps `$` it differs from the program.
- The restore pass also replaces placeholder-shaped text that the user wrote. It can likewise replace such text inside an earlier element, since `encodeURIComponent` keeps letters and digits. These cases are not characterised.
- Appwrite's `incrementRowColumn` ceiling is taken to refuse an increment whose result would pass `max`, and to refuse one on a missing row.
- The upload route, the other routes, `hooks.server.ts` and the constant tables in `tests.ts` and `reports.ts` are outside the modelled core. The test codes appear only as `DailyQuestion.TestCode`.

=== FILE: competition.dfy ===
/**
 * Competitions and their display label (src/lib/competition.ts): a competition
 * is a year, a division ("A" or "AA") and a location ("regional" or "state"),
 * shown as "<year> <division> <location label>".
 */
module Competition {
  import opened Wrappers
  import Text

  datatype Division = A | AA
  datatype Location = Regional | State
  datatype CompetitionInfo = CompetitionInfo(year: int, division: Division, location: Location)

  /** The division as stored and as shown. */
  function DivisionCode(d: Division): string {
    match d
    case A => "A"
    case AA => "AA"
  }

  /** The location as stored in a competition row. */
  function LocationCode(l: Location): string {
    match l
    case Regional => "regional"
    case State => "state"
  }

  function UpperAscii(c: char): char {
    if 'a' <= c <= 'z' then (c as int - 32) as char else c
  }

  /** The `locations` table: each stored location shown with its first letter capitalised. */
  function LocationLabel(l: Location): (shown: string)
    ensures |shown| == |LocationCode(l)| >= 1
    ensures shown[0] == UpperAscii(LocationCode(l)[0])
    ensures shown[1..] == LocationCode(l)[1..]
  {
    match l
    case Regional => "Regional"
    case State => "State"
  }

  /** formatCompetition: year, a space, the division, a space, the location label. */
  function FormatCompetition(c: CompetitionInfo): string {
    Text.IntToDecimal(c.year) + " " + DivisionCode(c.division) + " " + LocationLabel(c.location)
  }

  function ParseDivision(s: string): Option<Division> {
    if s == "A" then Some(A) else if s == "AA" then Some(AA) else None
  }

  function ParseLocationLabel(s: string): Option<Location> {
    if s == "Regional" then Some(Regional) else if s == "State" then Some(State) else None
  }

  /** Reads a label back into the competition it names; None for text that is not a label. */
  function ParseLabel(s: string): Option<CompetitionInfo> {
    match Text.SplitFirst(s, ' ')
    case None => None
    case Some((yearText, rest)) =>
      match Text.SplitFirst(rest, ' ')
      case None => None
      case Some((divisionText, locationText)) =>
        match (Text.ParseInt(yearText), ParseDivision(divisionText), ParseLocationLabel(locationText))
        case (Some(year), Some(division), Some(location)) => Some(CompetitionInfo(year, division, location))
        case _ => None
  }

  /** The label names the competition: reading it back gives the same year, division and location. */
  lemma FormatRoundTrip(c: CompetitionInfo)
    ensures ParseLabel(FormatCompetition(c)) == Some(c)
  {
    var y := Text.IntToDecimal(c.year);
    var d := DivisionCode(c.division);
    var l := LocationLabel(c.location);
    var rest := d + [' '] + l;
    assert FormatCompetition(c) == y + [' '] + rest;
    Text.SplitJoin(y, ' ', rest);
    assert ' ' !in d by {
      match c.division
      case A =>
      case AA =>
    }
    Text.SplitJoin(d, ' ', l);
    Text.IntRoundTrip(c.year);
    assert ParseDivision(d) == Some(c.division) by {
      match c.division
      case A =>
      case AA =>
    }
    assert ParseLocationLabel(l) == Some(c.location) by {
      match c.location
      case Regional =>
      case State =>
    }
  }

  /** Two different competitions never share a label. */
  lemma FormatInjective(c1: CompetitionInfo, c2: CompetitionInfo)
    requires FormatCompetition(c1) == FormatCompetition(c2)
    ensures c1 == c2
  {
    FormatRoundTrip(c1);
    FormatRoundTrip(c2);
  }
}

=== FILE: daily_question.dfy ===
/**
 * The question of the day (src/lib/server/dailyQuestion.ts). A seed built
 * from the local date and the test is hashed with SHA-256; the first 32 bits
 * of the digest, read through its lowercase hex rendering, pick an active
 * competition; a second seed extended with that competition picks one of its
 * questions for the test. SHA-256 is the parameter `sha`.
 */
module DailyQuestion {
  import opened Wrappers
  import opened Store
  import Text
  import Competition

  type Byte = b: int | 0 <= b < 256

  /** A SHA-256 digest: 32 bytes. */
  type Digest = d: seq<Byte> | |d| == 32 witness seq(32, i => 0)

  datatype TestCode = Algebra1 | Geometry | Algebra2 | Precalculus | Calculator | Fs2 | Js2 | Fs8 | Js8

  function TestName(t: TestCode): string {
    match t
    case Algebra1 => "algebra1"
    case Geometry => "geometry"
    case Algebra2 => "algebra2"
    case Precalculus => "precalculus"
    case Calculator => "calculator"
    case Fs2 => "fs2"
    case Js2 => "js2"
    case Fs8 => "fs8"
    case Js8 => "js8"
  }

  function ParseTestName(s: string): Option<TestCode> {
    if s == "algebra1" then Some(Algebra1)
    else if s == "geometry" then Some(Geometry)
    else if s == "algebra2" then Some(Algebra2)
    else if s == "precalculus" then Some(Precalculus)
    else if s == "calculator" then Some(Calculator)
    else if s == "fs2" then Some(Fs2)
    else if s == "js2" then Some(Js2)
    else if s == "fs8" then Some(Fs8)
    else if s == "js8" then Some(Js8)
    else None
  }

  lemma TestNameRoundTrip(t: TestCode)
    ensures ParseTestName(TestName(t)) == Some(t)
  {
  }

  /** The server's local calendar date: getFullYear(), getMonth() (0-based) and getDate(). */
  datatype LocalDate = LocalDate(year: int, monthIndex: nat, day: nat)

  /** `${year}-${month}-${day}-${test}` with a 1-based month and no zero padding. */
  function DaySeed(d: LocalDate, t: TestCode): string {
    Text.IntToDecimal(d.year) + "-" + (Text.NatToDecimal(d.monthIndex + 1) + "-" + (Text.NatToDecimal(d.day) + "-" + TestName(t)))
  }

  lemma NoDashInDecimal(n: nat)
    ensures '-' !in Text.NatToDecimal(n)
    ensures '-' !in Text.IntToDecimal(n)
  {
    var s := Text.NatToDecimal(n);
    assert forall i :: 0 <= i < |s| ==> s[i] != '-';
  }

  /** Each (date, test) pair of a year from 0 on has its own seed. */
  lemma DaySeedInjective(d1: LocalDate, t1: TestCode, d2: LocalDate, t2: TestCode)
    requires d1.year >= 0 && d2.year >= 0
    requires DaySeed(d1, t1) == DaySeed(d2, t2)
    ensures d1 == d2 && t1 == t2
  {
    DaySeedParts(d1, t1, d2, t2);
    Text.DecimalInjective(d1.year, d2.year);
    Text.DecimalInjective(d1.monthIndex + 1, d2.monthIndex + 1);
    Text.DecimalInjective(d1.day, d2.day);
    TestNameRoundTrip(t1);
    TestNameRoundTrip(t2);
  }

  /** Equal day seeds split at their dashes into equal year, month, day and test texts. */
  lemma DaySeedParts(d1: LocalDate, t1: TestCode, d2: LocalDate, t2: TestCode)
    requires d1.year >= 0 && d2.year >= 0
    requires DaySeed(d1, t1) == DaySeed(d2, t2)
    ensures Text.IntToDecimal(d1.year) == Text.IntToDecimal(d2.year)
    ensures Text.NatToDecimal(d1.monthIndex + 1) == Text.NatToDecimal(d2.monthIndex + 1)
    ensures Text.NatToDecimal(d1.day) == Text.NatToDecimal(d2.day)
    ensures TestName(t1) == TestName(t2)
  {
    var y1, m1, a1 := Text.IntToDecimal(d1.year), Text.NatToDecimal(d1.monthIndex + 1), Text.NatToDecimal(d1.day);
    var y2, m2, a2 := Text.IntToDecimal(d2.year), Text.NatToDecimal(d2.monthIndex + 1), Text.NatToDecimal(d2.day);
    NoDashInDecimal(d1.year); NoDashInDecimal(d1.monthIndex + 1); NoDashInDecimal(d1.day);
    NoDashInDecimal(d2.year); NoDashInDecimal(d2.monthIndex + 1); NoDashInDecimal(d2.day);
    var s1, s2 := a1 + ['-'] + TestName(t1), a2 + ['-'] + TestName(t2);
    var r1, r2 := m1 + ['-'] + s1, m2 + ['-'] + s2;
    Text.JoinInjective(y1, r1, y2, r2, '-');
    Text.JoinInjective(m1, s1, m2, s2, '-');
    Text.JoinInjective(a1, TestName(t1), a2, TestName(t2), '-');
  }

  /** The lowercase hex digit of a value below 16. */
  function HexDigit(v: nat): (c: char)
    requires v < 16
    ensures IsLowerHexDigit(c) && HexValue(c) == v
  {
    if v < 10 then ('0' as int + v) as char else ('a' as int + v - 10) as char
  }

  /** Number.prototype.toString(16) for a non-negative integer. */
  function NatToHex(n: nat): string
    decreases n
  {
    if n < 16 then [HexDigit(n)] else NatToHex(n / 16) + [HexDigit(n % 16)]
  }

  /** String.prototype.padStart(len, c) with a one-character pad. */
  function PadStart(s: string, len: nat, c: char): (r: string)
    ensures |r| == if |s| >= len then |s| else len
    ensures r[|r| - |s|..] == s
  {
    if |s| >= len then s else seq(len - |s|, i => c) + s
  }

  /** `b.toString(16).padStart(2, '0')`. */
  function ByteHex(b: Byte): string {
    PadStart(NatToHex(b), 2, '0')
  }

  /** Every byte renders as exactly two lowercase hex digits, high nibble first. */
  lemma ByteHexDigits(b: Byte)
    ensures ByteHex(b) == [HexDigit(b / 16), HexDigit(b % 16)]
  {
    if b >= 16 {
      assert NatToHex(b / 16) == [HexDigit(b / 16)];
    }
  }

  /** hashArray.map(...).join(''). */
  function HexOf(bytes: seq<Byte>): (h: string)
    ensures |h| == 2 * |bytes|
    ensures forall i :: 0 <= i < |h| ==> IsLowerHexDigit(h[i])
    decreases |bytes|
  {
    if |bytes| == 0 then ""
    else
      var head, tail := ByteHex(bytes[0]), HexOf(bytes[1..]);
      ByteHexDigits(bytes[0]);
      assert IsLowerHexDigit(head[0]) && IsLowerHexDigit(head[1]);
      head + tail
  }

  /** A digit of the rendering: 0-9 or a lowercase a-f. */
  predicate IsLowerHexDigit(c: char) {
    '0' <= c <= '9' || 'a' <= c <= 'f'
  }

  /** A digit parseInt(_, 16) accepts, in either case. */
  predicate IsHexDigit(c: char) {
    IsLowerHexDigit(c) || 'A' <= c <= 'F'
  }

  function HexValue(c: char): (v: nat)
    requires IsHexDigit(c)
    ensures v < 16
  {
    if '0' <= c <= '9' then c as int - '0' as int
    else if 'a' <= c <= 'f' then c as int - 'a' as int + 10
    else c as int - 'A' as int + 10
  }

  /** parseInt(s, 16) for a string of hex digits. */
  function ParseHex(s: string): nat
    requires forall i :: 0 <= i < |s| ==> IsHexDigit(s[i])
    decreases |s|
  {
    if |s| == 0 then 0 else ParseHex(s[..|s| - 1]) * 16 + HexValue(s[|s| - 1])
  }

  /** Rendering is byte by byte: the hex of a concatenation is the concatenation of the hexes. */
  lemma {:induction false} HexOfAppend(a: seq<Byte>, b: seq<Byte>)
    ensures HexOf(a + b) == HexOf(a) + HexOf(b)
    decreases |a|
  {
    if |a| == 0 {
      assert a + b == b;
    } else {
      assert (a + b)[1..] == a[1..] + b;
      HexOfAppend(a[1..], b);
    }
  }

  /** Appending a byte's two digits multiplies the value read so far by 256 and adds the byte. */
  lemma ParseHexAppendByte(s: string, b: Byte)
    requires forall i :: 0 <= i < |s| ==> IsHexDigit(s[i])
    ensures var t := s + [HexDigit(b / 16), HexDigit(b % 16)];
            (forall i :: 0 <= i < |t| ==> IsHexDigit(t[i])) && ParseHex(t) == ParseHex(s) * 256 + b
  {
    var t := s + [HexDigit(b / 16), HexDigit(b % 16)];
    assert t[..|t| - 1] == s + [HexDigit(b / 16)];
    assert (s + [HexDigit(b / 16)])[..|s|] == s;
  }

  /** The bytes read as one big-endian unsigned number. */
  function BigEndian(bs: seq<Byte>): nat
    decreases |bs|
  {
    if |bs| == 0 then 0 else BigEndian(bs[..|bs| - 1]) * 256 + bs[|bs| - 1]
  }

  function Pow256(k: nat): (p: nat)
    ensures p >= 1
  {
    if k == 0 then 1 else 256 * Pow256(k - 1)
  }

  lemma {:induction false} BigEndianBound(bs: seq<Byte>)
    ensures BigEndian(bs) < Pow256(|bs|)
    decreases |bs|
  {
    if |bs| > 0 {
      BigEndianBound(bs[..|bs| - 1]);
    }
  }

  /** Reading the hex rendering as one base-16 number gives the bytes' big-endian value. */
  lemma {:induction false} ParseHexOfHex(bs: seq<Byte>)
    ensures ParseHex(HexOf(bs)) == BigEndian(bs)
    decreases |bs|
  {
    if |bs| > 0 {
      var init, last := bs[..|bs| - 1], bs[|bs| - 1];
      assert bs == init + [last];
      HexOfAppend(init, [last]);
      ByteHexDigits(last);
      assert HexOf([last]) == ByteHex(last) + HexOf([]);
      assert HexOf(bs) == HexOf(init) + [HexDigit(last / 16), HexDigit(last % 16)];
      ParseHexAppendByte(HexOf(init), last);
      ParseHexOfHex(init);
      assert BigEndian(bs) == BigEndian(init) * 256 + last;
    }
  }

  /** parseInt(hashHex.slice(0, 8), 16). */
  function HashInt(d: Digest): nat {
    ParseHex(HexOf(d)[..8])
  }

  /** The first eight hex digits read the first four digest bytes big-endian: a value in [0, 2^32). */
  lemma HashIntIsBigEndian(d: Digest)
    ensures HashInt(d) == BigEndian(d[..4])
    ensures HashInt(d) < 0x1_0000_0000
  {
    assert d == d[..4] + d[4..];
    HexOfAppend(d[..4], d[4..]);
    assert HexOf(d)[..8] == HexOf(d[..4]);
    ParseHexOfHex(d[..4]);
    BigEndianBound(d[..4]);
    assert Pow256(4) == 0x1_0000_0000;
  }

  /** `${seed}-${year}-${division}-${location}` of the chosen competition. */
  function QuestionSeed(daySeed: string, c: CompetitionRow): string {
    daySeed + "-" + CompetitionSuffix(c)
  }

  function CompetitionSuffix(c: CompetitionRow): string {
    Text.IntToDecimal(c.year) + "-" + (Competition.DivisionCode(c.division) + "-" + Competition.LocationCode(c.location))
  }

  lemma NoDashInCodes(c: CompetitionRow)
    ensures '-' !in Competition.DivisionCode(c.division)
    ensures '-' !in Competition.LocationCode(c.location)
  {
  }

  lemma CodesInjective(c1: CompetitionRow, c2: CompetitionRow)
    requires Competition.DivisionCode(c1.division) == Competition.DivisionCode(c2.division)
    requires Competition.LocationCode(c1.location) == Competition.LocationCode(c2.location)
    ensures c1.division == c2.division && c1.location == c2.location
  {
    assert Competition.ParseDivision(Competition.DivisionCode(c1.division)) == Some(c1.division);
    assert Competition.ParseDivision(Competition.DivisionCode(c2.division)) == Some(c2.division);
    assert |Competition.LocationCode(c1.location)| == |Competition.LocationCode(c2.location)|;
  }

  lemma SamePrefix(p: string, a: string, b: string)
    requires p + a == p + b
    ensures a == b
  {
    assert a == (p + a)[|p|..];
    assert b == (p + b)[|p|..];
  }

  /** Under one day seed, competitions from year 0 on that differ in year, division or location get different seeds. */
  lemma QuestionSeedInjective(daySeed: string, c1: CompetitionRow, c2: CompetitionRow)
    requires c1.year >= 0 && c2.year >= 0
    requires QuestionSeed(daySeed, c1) == QuestionSeed(daySeed, c2)
    ensures c1.year == c2.year && c1.division == c2.division && c1.location == c2.location
  {
    assert QuestionSeed(daySeed, c1) == (daySeed + "-") + CompetitionSuffix(c1);
    assert QuestionSeed(daySeed, c2) == (daySeed + "-") + CompetitionSuffix(c2);
    SamePrefix(daySeed + "-", CompetitionSuffix(c1), CompetitionSuffix(c2));
    var y1, d1, l1 := Text.IntToDecimal(c1.year), Competition.DivisionCode(c1.division), Competition.LocationCode(c1.location);
    var y2, d2, l2 := Text.IntToDecimal(c2.year), Competition.DivisionCode(c2.division), Competition.LocationCode(c2.location);
    NoDashInDecimal(c1.year);
    NoDashInDecimal(c2.year);
    NoDashInCodes(c1);
    NoDashInCodes(c2);
    Text.JoinInjective(y1, d1 + "-" + l1, y2, d2 + "-" + l2, '-');
    Text.JoinInjective(d1, l1, d2, l2, '-');
    Text.DecimalInjective(c1.year, c2.year);
    CodesInjective(c1, c2);
  }

  predicate IsActive(c: CompetitionRow) {
    c.active
  }

  /** listRows(competitions, [active = true]). */
  function ActiveCompetitions(all: seq<CompetitionRow>): seq<CompetitionRow> {
    Filter(all, IsActive)
  }

  /** listRows(questions, [competitionId = .., test = ..]). */
  function QuestionsOf(all: seq<QuestionRow>, competitionId: string, t: TestCode): seq<QuestionRow> {
    Filter(all, (q: QuestionRow) => q.competitionId == competitionId && q.test == TestName(t))
  }

  datatype Failure =
    | NoActiveCompetition   // hashInt % 0 is NaN and reading the year of `undefined` throws
    | NoQuestions           // "No questions found for ..."

  datatype Pick = Pick(question: QuestionRow, competition: CompetitionRow)

  /** The competition of the day for a test: None when no competition is active. */
  function PickCompetition(d: LocalDate, t: TestCode, competitions: seq<CompetitionRow>, sha: string -> Digest): (r: Option<CompetitionRow>)
    ensures r.None? <==> |ActiveCompetitions(competitions)| == 0
    ensures r.Some? ==> r.value in competitions && r.value.active
    ensures r.Some? ==>
      r.value == ActiveCompetitions(competitions)[BigEndian(sha(DaySeed(d, t))[..4]) % |ActiveCompetitions(competitions)|]
  {
    var active := ActiveCompetitions(competitions);
    HashIntIsBigEndian(sha(DaySeed(d, t)));
    if |active| == 0 then None else Some(active[HashInt(sha(DaySeed(d, t))) % |active|])
  }

  /** getDailyQuestion(test) on date d. */
  function GetDailyQuestion(d: LocalDate, t: TestCode, competitions: seq<CompetitionRow>, questions: seq<QuestionRow>,
                            sha: string -> Digest): (r: Result<Pick, Failure>)
    ensures r.Err? && r.error == NoActiveCompetition <==> |ActiveCompetitions(competitions)| == 0
    ensures r.Err? && r.error == NoQuestions <==>
      PickCompetition(d, t, competitions, sha).Some? &&
      |QuestionsOf(questions, PickCompetition(d, t, competitions, sha).value.id, t)| == 0
    ensures r.Ok? ==>
      && r.value.competition in competitions && r.value.competition.active
      && r.value.question in questions
      && r.value.question.competitionId == r.value.competition.id
      && r.value.question.test == TestName(t)
    ensures r.Ok? ==>
      && PickCompetition(d, t, competitions, sha) == Some(r.value.competition)
      && |QuestionsOf(questions, r.value.competition.id, t)| > 0
      && r.value.question == QuestionsOf(questions, r.value.competition.id, t)[
           BigEndian(sha(QuestionSeed(DaySeed(d, t), r.value.competition))[..4])
           % |QuestionsOf(questions, r.value.competition.id, t)|]
  {
    match PickCompetition(d, t, competitions, sha)
    case None => Err(NoActiveCompetition)
    case Some(c) =>
      var qs := QuestionsOf(questions, c.id, t);
      HashIntIsBigEndian(sha(QuestionSeed(DaySeed(d, t), c)));
      if |qs| == 0 then Err(NoQuestions)
      else Ok(Pick(qs[HashInt(sha(QuestionSeed(DaySeed(d, t), c))) % |qs|], c))
  }
}

=== FILE: formatting.dfy ===
/**
 * Markdown with LaTeX (src/lib/formatting.ts). Display math `$$…$$` is cut
 * out first, then inline math `$…$`; each cut is replaced by a numbered
 * placeholder and an HTML element is recorded for it. The remaining text goes
 * through the markdown renderer (a parameter: None when it throws, in which
 * case every newline becomes `<br>`), and finally each placeholder is swapped
 * for its element. encodeURIComponent is the parameter `encode`.
 */
module Formatting {
  import opened Wrappers
  import Text

  // ---------------------------------------------------------------- scanning

  datatype MathKind = DisplayMath | InlineMath

  /** What the scanner cut: one untouched character, or a delimited math body. */
  datatype Piece = Lit(c: char) | Math(body: string)

  function Delimiter(k: MathKind): string {
    match k
    case DisplayMath => "$$"
    case InlineMath => "$"
  }

  /** The text a sequence of pieces was cut from. */
  function Source(ps: seq<Piece>, k: MathKind): string
    decreases |ps|
  {
    if |ps| == 0 then "" else PieceSource(ps[0], k) + Source(ps[1..], k)
  }

  /** Index of the first `a` or `b` in `s`, or |s| when there is none. */
  function IndexOfEither(s: string, a: char, b: char): (k: nat)
    ensures k <= |s|
    ensures k < |s| ==> s[k] == a || s[k] == b
    ensures forall j :: 0 <= j < k ==> s[j] != a && s[j] != b
    decreases |s|
  {
    if |s| == 0 || s[0] == a || s[0] == b then 0 else 1 + IndexOfEither(s[1..], a, b)
  }

  /** /\$\$([^$]*?)\$\$/ matches at the start of `s`, its body ending at q. */
  ghost predicate DisplayMatchAt(s: string, q: nat) {
    && 2 <= q && q + 1 < |s|
    && s[0] == '$' && s[1] == '$' && s[q] == '$' && s[q + 1] == '$'
    && forall j :: 2 <= j < q ==> s[j] != '$'
  }

  /** /\$([^$\n]*?)\$/ matches at the start of `s`, its body ending at q. */
  ghost predicate InlineMatchAt(s: string, q: nat) {
    && 1 <= q < |s|
    && s[0] == '$' && s[q] == '$'
    && forall j :: 1 <= j < q ==> s[j] != '$' && s[j] != '\n'
  }

  /** Where the display-math match starting at the head of `s` closes, if one does. */
  function DisplayClose(s: string): (r: Option<nat>)
    ensures r.Some? ==> DisplayMatchAt(s, r.value)
  {
    if |s| >= 2 && s[0] == '$' && s[1] == '$' then
      var q := 2 + Text.IndexOf(s[2..], '$');
      if q + 1 < |s| && s[q + 1] == '$' then Some(q) else None
    else None
  }

  /** The scanner misses no display match: None exactly when the regex cannot match here. */
  lemma DisplayCloseComplete(s: string)
    ensures DisplayClose(s).None? <==> forall q: nat :: !DisplayMatchAt(s, q)
  {
    if |s| >= 2 && s[0] == '$' && s[1] == '$' {
      var q := 2 + Text.IndexOf(s[2..], '$');
      forall q': nat ensures DisplayMatchAt(s, q') ==> q' == q {
        if 2 <= q' < q {
          assert s[q'] == s[2..][q' - 2];
        } else if q < q' < |s| {
          assert s[q] == s[2..][q - 2];
        }
      }
    }
  }

  /** Where the inline-math match starting at the head of `s` closes, if one does. */
  function InlineClose(s: string): (r: Option<nat>)
    ensures r.Some? ==> InlineMatchAt(s, r.value)
  {
    if |s| >= 1 && s[0] == '$' then
      var q := 1 + IndexOfEither(s[1..], '$', '\n');
      if q < |s| && s[q] == '$' then Some(q) else None
    else None
  }

  /** The scanner misses no inline match: None exactly when the regex cannot match here. */
  lemma InlineCloseComplete(s: string)
    ensures InlineClose(s).None? <==> forall q: nat :: !InlineMatchAt(s, q)
  {
    if |s| >= 1 && s[0] == '$' {
      var q := 1 + IndexOfEither(s[1..], '$', '\n');
      forall q': nat ensures InlineMatchAt(s, q') ==> q' == q {
        if 1 <= q' < q {
          assert s[q'] == s[1..][q' - 1];
        } else if q < q' < |s| {
          assert s[q] == s[1..][q - 1];
        }
      }
    }
  }

  /** The text one piece was cut from. */
  function PieceSource(p: Piece, k: MathKind): string {
    match p
    case Lit(c) => [c]
    case Math(b) => Delimiter(k) + b + Delimiter(k)
  }

  lemma SourceCons(p: Piece, ps: seq<Piece>, k: MathKind)
    ensures Source([p] + ps, k) == PieceSource(p, k) + Source(ps, k)
  {
    assert ([p] + ps)[1..] == ps;
  }

  /** The display pass's scan: leftmost matches, resuming after each one. */
  function DisplaySplit(s: string): seq<Piece>
    decreases |s|
  {
    if |s| == 0 then []
    else
      match DisplayClose(s)
      case Some(q) => [Math(s[2..q])] + DisplaySplit(s[q + 2..])
      case None => [Lit(s[0])] + DisplaySplit(s[1..])
  }

  /** The inline pass's scan: leftmost matches, resuming after each one. */
  function InlineSplit(s: string): seq<Piece>
    decreases |s|
  {
    if |s| == 0 then []
    else
      match InlineClose(s)
      case Some(q) => [Math(s[1..q])] + InlineSplit(s[q + 1..])
      case None => [Lit(s[0])] + InlineSplit(s[1..])
  }

  /** No piece's body holds the character c. */
  ghost predicate BodiesAvoid(ps: seq<Piece>, c: char) {
    forall i :: 0 <= i < |ps| && ps[i].Math? ==> c !in ps[i].body
  }

  lemma BodiesAvoidCons(p: Piece, ps: seq<Piece>, c: char)
    requires p.Math? ==> c !in p.body
    requires BodiesAvoid(ps, c)
    ensures BodiesAvoid([p] + ps, c)
  {
    forall i | 0 <= i < |[p] + ps| && ([p] + ps)[i].Math? ensures c !in ([p] + ps)[i].body {
      if i > 0 {
        assert ([p] + ps)[i] == ps[i - 1];
      }
    }
  }

  /** A display body never holds a dollar sign. */
  lemma {:induction false} DisplayBodiesPlain(s: string)
    ensures BodiesAvoid(DisplaySplit(s), '$')
    decreases |s|
  {
    if |s| > 0 {
      match DisplayClose(s)
      case Some(q) =>
        DisplayBodiesPlain(s[q + 2..]);
        assert '$' !in s[2..q] by {
          forall j | 0 <= j < q - 2 ensures s[2..q][j] != '$' { assert s[2..q][j] == s[j + 2]; }
        }
        BodiesAvoidCons(Math(s[2..q]), DisplaySplit(s[q + 2..]), '$');
      case None =>
        DisplayBodiesPlain(s[1..]);
        BodiesAvoidCons(Lit(s[0]), DisplaySplit(s[1..]), '$');
    }
  }

  /** An inline body never holds a dollar sign or a newline. */
  lemma {:induction false} InlineBodiesPlain(s: string)
    ensures BodiesAvoid(InlineSplit(s), '$') && BodiesAvoid(InlineSplit(s), '\n')
    decreases |s|
  {
    if |s| > 0 {
      match InlineClose(s)
      case Some(q) =>
        InlineBodiesPlain(s[q + 1..]);
        assert '$' !in s[1..q] && '\n' !in s[1..q] by {
          forall j | 0 <= j < q - 1 ensures s[1..q][j] != '$' && s[1..q][j] != '\n' { assert s[1..q][j] == s[j + 1]; }
        }
        BodiesAvoidCons(Math(s[1..q]), InlineSplit(s[q + 1..]), '$');
        BodiesAvoidCons(Math(s[1..q]), InlineSplit(s[q + 1..]), '\n');
      case None =>
        InlineBodiesPlain(s[1..]);
        BodiesAvoidCons(Lit(s[0]), InlineSplit(s[1..]), '$');
        BodiesAvoidCons(Lit(s[0]), InlineSplit(s[1..]), '\n');
    }
  }

  /** A display match is its delimiters around its body, followed by the rest of the text. */
  lemma DisplayParts(s: string, q: nat)
    requires DisplayMatchAt(s, q)
    ensures PieceSource(Math(s[2..q]), DisplayMath) + s[q + 2..] == s
  {
    assert s[..2] == "$$";
    assert s[q..q + 2] == "$$";
    assert s == s[..2] + s[2..q] + s[q..q + 2] + s[q + 2..];
  }

  /** An inline match is its delimiters around its body, followed by the rest of the text. */
  lemma InlineParts(s: string, q: nat)
    requires InlineMatchAt(s, q)
    ensures PieceSource(Math(s[1..q]), InlineMath) + s[q + 1..] == s
  {
    assert s[..1] == "$";
    assert s[q..q + 1] == "$";
    assert s == s[..1] + s[1..q] + s[q..q + 1] + s[q + 1..];
  }

  /** The display scan loses nothing: putting the delimiters back gives the text. */
  lemma {:induction false} DisplaySplitRoundTrip(s: string)
    ensures Source(DisplaySplit(s), DisplayMath) == s
    decreases |s|
  {
    if |s| > 0 {
      match DisplayClose(s)
      case Some(q) =>
        DisplaySplitRoundTrip(s[q + 2..]);
        SourceCons(Math(s[2..q]), DisplaySplit(s[q + 2..]), DisplayMath);
        DisplayParts(s, q);
      case None =>
        DisplaySplitRoundTrip(s[1..]);
        SourceCons(Lit(s[0]), DisplaySplit(s[1..]), DisplayMath);
        assert s == [s[0]] + s[1..];
    }
  }

  /** The inline scan loses nothing: putting the delimiters back gives the text. */
  lemma {:induction false} InlineSplitRoundTrip(s: string)
    ensures Source(InlineSplit(s), InlineMath) == s
    decreases |s|
  {
    if |s| > 0 {
      match InlineClose(s)
      case Some(q) =>
        InlineSplitRoundTrip(s[q + 1..]);
        SourceCons(Math(s[1..q]), InlineSplit(s[q + 1..]), InlineMath);
        InlineParts(s, q);
      case None =>
        InlineSplitRoundTrip(s[1..]);
        SourceCons(Lit(s[0]), InlineSplit(s[1..]), InlineMath);
        assert s == [s[0]] + s[1..];
    }
  }

  // ---------------------------------------------------------------- trimming

  /** The characters String.prototype.trim removes: white space and line terminators. */
  predicate IsJsSpace(c: char) {
    || c == '\t' || c == '\n' || c == '\U{B}' || c == '\U{C}' || c == '\r' || c == ' '
    || c == '\U{A0}' || c == '\U{1680}' || ('\U{2000}' <= c <= '\U{200A}')
    || c == '\U{2028}' || c == '\U{2029}' || c == '\U{202F}' || c == '\U{205F}'
    || c == '\U{3000}' || c == '\U{FEFF}'
  }

  function TrimStart(s: string): (r: string)
    ensures |r| <= |s| && r == s[|s| - |r|..]
    ensures forall j :: 0 <= j < |s| - |r| ==> IsJsSpace(s[j])
    ensures |r| > 0 ==> !IsJsSpace(r[0])
    decreases |s|
  {
    if |s| > 0 && IsJsSpace(s[0]) then TrimStart(s[1..]) else s
  }

  function TrimEnd(s: string): (r: string)
    ensures |r| <= |s| && r == s[..|r|]
    ensures forall j :: |r| <= j < |s| ==> IsJsSpace(s[j])
    ensures |r| > 0 ==> !IsJsSpace(r[|r| - 1])
    decreases |s|
  {
    if |s| > 0 && IsJsSpace(s[|s| - 1]) then TrimEnd(s[..|s| - 1]) else s
  }

  /** String.prototype.trim. */
  function Trim(s: string): string {
    TrimEnd(TrimStart(s))
  }

  /** trim() gives '' exactly for text made only of white space. */
  lemma TrimEmptyIff(s: string)
    ensures Trim(s) == "" <==> forall j :: 0 <= j < |s| ==> IsJsSpace(s[j])
  {
    var a := TrimStart(s);
    if Trim(s) == "" {
      assert |a| == 0;
    } else {
      assert !IsJsSpace(a[0]);
      assert a[0] == s[|s| - |a|];
    }
  }

  /** Trimming twice is trimming once. */
  lemma TrimIdempotent(s: string)
    ensures Trim(Trim(s)) == Trim(s)
  {
    var t := Trim(s);
    if |t| > 0 {
      assert TrimStart(t) == t;
      assert TrimEnd(t) == t;
    }
  }

  // ---------------------------------------------------------------- placeholders

  function Tag(k: MathKind): string {
    match k
    case DisplayMath => "DISPLAYMATH"
    case InlineMath => "INLINEMATH"
  }

  /** `DISPLAYMATH${i}PLACEHOLDER` or `INLINEMATH${i}PLACEHOLDER`. */
  function Placeholder(k: MathKind, i: nat): (p: string)
    ensures |p| > 0
  {
    Tag(k) + Text.NatToDecimal(i) + "PLACEHOLDER"
  }

  /** `pat` occurs in `s` starting at `o`. */
  ghost predicate OccursAt(pat: string, s: string, o: nat) {
    o + |pat| <= |s| && s[o..o + |pat|] == pat
  }

  lemma LettersAreNotDigits(k: MathKind)
    ensures forall t :: 0 <= t < |Tag(k)| ==> !Text.IsDigit(Tag(k)[t])
    ensures forall t :: 0 <= t < |"PLACEHOLDER"| ==> !Text.IsDigit("PLACEHOLDER"[t])
  {
  }

  /** The digits of p are exactly the positions lo..hi-1. */
  ghost predicate DigitSpan(p: string, lo: nat, hi: nat) {
    forall t :: 0 <= t < |p| ==> (Text.IsDigit(p[t]) <==> lo <= t < hi)
  }

  /** The digits of a placeholder are exactly its counter. */
  lemma PlaceholderDigits(k: MathKind, i: nat)
    ensures DigitSpan(Placeholder(k, i), |Tag(k)|, |Tag(k)| + |Text.NatToDecimal(i)|)
  {
    var p, d := Placeholder(k, i), Text.NatToDecimal(i);
    LettersAreNotDigits(k);
    forall t | 0 <= t < |p| ensures Text.IsDigit(p[t]) <==> |Tag(k)| <= t < |Tag(k)| + |d| {
      if t < |Tag(k)| {
        assert p[t] == Tag(k)[t];
      } else if t < |Tag(k)| + |d| {
        assert p[t] == d[t - |Tag(k)|];
      } else {
        assert p[t] == "PLACEHOLDER"[t - |Tag(k)| - |d|];
      }
    }
  }

  /** Position t of an occurrence of x at o in y. */
  lemma OccursAtIndex(x: string, y: string, o: nat, t: nat)
    requires OccursAt(x, y, o) && t < |x|
    ensures x[t] == y[o + t]
  {
    assert y[o..o + |x|][t] == y[o + t];
  }

  /** Digit t of a placeholder's counter, counted from the end of its tag. */
  lemma CounterDigit(k: MathKind, i: nat, t: nat)
    requires t < |Text.NatToDecimal(i)|
    ensures Placeholder(k, i)[|Tag(k)| + t] == Text.NatToDecimal(i)[t]
  {
  }

  /** An occurrence of one placeholder inside another lines up their counters digit for digit. */
  lemma CountersAlign(k1: MathKind, i: nat, k2: MathKind, j: nat, o: nat)
    requires OccursAt(Placeholder(k1, i), Placeholder(k2, j), o)
    ensures o + |Tag(k1)| == |Tag(k2)| && i == j
  {
    var x, y := Placeholder(k1, i), Placeholder(k2, j);
    var d1, d2 := Text.NatToDecimal(i), Text.NatToDecimal(j);
    var a, b := |Tag(k1)|, |Tag(k2)|;
    assert a >= 10 && |x| == a + |d1| + 11;
    PlaceholderDigits(k1, i);
    PlaceholderDigits(k2, j);
    // The counter's first digit lands among y's digits, the letter before it does not.
    OccursAtIndex(x, y, o, a);
    OccursAtIndex(x, y, o, a - 1);
    assert Text.IsDigit(x[a]) && !Text.IsDigit(x[a - 1]);
    assert o + a == b;
    // Likewise the last digit and the letter after it.
    OccursAtIndex(x, y, o, a + |d1| - 1);
    OccursAtIndex(x, y, o, a + |d1|);
    assert Text.IsDigit(x[a + |d1| - 1]) && !Text.IsDigit(x[a + |d1|]);
    assert |d1| == |d2|;
    forall t | 0 <= t < |d1| ensures d1[t] == d2[t] {
      OccursAtIndex(x, y, o, a + t);
      CounterDigit(k1, i, t);
      CounterDigit(k2, j, t);
    }
    assert d1 == d2;
    Text.DecimalInjective(i, j);
  }

  /** No placeholder occurs inside another one: distinct counters or kinds never collide in restore. */
  lemma PlaceholderNotInOther(k1: MathKind, i: nat, k2: MathKind, j: nat, o: nat)
    requires OccursAt(Placeholder(k1, i), Placeholder(k2, j), o)
    ensures k1 == k2 && i == j && o == 0
  {
    var x, y := Placeholder(k1, i), Placeholder(k2, j);
    CountersAlign(k1, i, k2, j, o);
    // A shift by one would put the 'N' of INLINEMATH under the 'S' of DISPLAYMATH.
    OccursAtIndex(x, y, o, 1);
    assert x[1] == Tag(k1)[1];
    assert y[o + 1] == Tag(k2)[o + 1];
  }

  /** Different placeholders are different strings. */
  lemma PlaceholderInjective(k1: MathKind, i: nat, k2: MathKind, j: nat)
    requires Placeholder(k1, i) == Placeholder(k2, j)
    ensures k1 == k2 && i == j
  {
    PlaceholderNotInOther(k1, i, k2, j, 0);
  }

  // ---------------------------------------------------------------- rendering

  /** The element recorded for a math body, holding its URI-encoded trimmed text. */
  function Element(k: MathKind, encoded: string): string {
    match k
    case DisplayMath => "<div class=\"display-math\" data-math=\"" + encoded + "\"></div>"
    case InlineMath => "<span class=\"inline-math\" data-math=\"" + encoded + "\"></span>"
  }

  /** One recorded replacement: the pass that made it, its counter and the URI-encoded trimmed body. */
  datatype Replacement = Replacement(kind: MathKind, number: nat, encoded: string)
  datatype Rendered = Rendered(text: string, replacements: seq<Replacement>)

  /** What a pass records for the body it numbers n. */
  function Record(k: MathKind, n: nat, body: string, encode: string -> string): Replacement {
    Replacement(k, n, encode(Trim(body)))
  }

  /** The text the replacement's placeholder stands in for. */
  function PlaceholderOf(r: Replacement): string {
    Placeholder(r.kind, r.number)
  }

  /** The element the replacement's placeholder becomes. */
  function ElementOf(r: Replacement): string {
    Element(r.kind, r.encoded)
  }

  /** Whether a pass swaps this body for a placeholder: display math always, inline math unless blank. */
  predicate Replaces(k: MathKind, body: string) {
    k == DisplayMath || Trim(body) != ""
  }

  /** The bodies a pass swaps out, left to right. */
  function Swapped(k: MathKind, ps: seq<Piece>): seq<string>
    decreases |ps|
  {
    if |ps| == 0 then []
    else if ps[0].Math? && Replaces(k, ps[0].body) then [ps[0].body] + Swapped(k, ps[1..])
    else Swapped(k, ps[1..])
  }

  /** One replace pass: the callback's text for each match, counting from `counter`. */
  function Render(k: MathKind, ps: seq<Piece>, counter: nat, encode: string -> string): (r: Rendered)
    ensures |r.replacements| == |Swapped(k, ps)|
    ensures |Swapped(k, ps)| == 0 ==> r.text == Source(ps, k)
    decreases |ps|
  {
    if |ps| == 0 then Rendered("", [])
    else
      match ps[0]
      case Lit(c) =>
        var rest := Render(k, ps[1..], counter, encode);
        Rendered([c] + rest.text, rest.replacements)
      case Math(b) =>
        if Replaces(k, b) then
          var rest := Render(k, ps[1..], counter + 1, encode);
          Rendered(Placeholder(k, counter) + rest.text, [Record(k, counter, b, encode)] + rest.replacements)
        else
          var rest := Render(k, ps[1..], counter, encode);
          Rendered(Delimiter(k) + b + Delimiter(k) + rest.text, rest.replacements)
  }

  /** The records of a list of bodies, numbered consecutively from `counter`. */
  function Records(k: MathKind, counter: nat, bodies: seq<string>, encode: string -> string): (rs: seq<Replacement>)
    ensures |rs| == |bodies|
    decreases |bodies|
  {
    if |bodies| == 0 then []
    else [Record(k, counter, bodies[0], encode)] + Records(k, counter + 1, bodies[1..], encode)
  }

  /** The i-th record is the i-th body's, numbered counter + i. */
  lemma {:induction false} RecordsAt(k: MathKind, counter: nat, bodies: seq<string>, encode: string -> string, i: nat)
    requires i < |bodies|
    ensures Records(k, counter, bodies, encode)[i] == Record(k, counter + i, bodies[i], encode)
    decreases i
  {
    if i > 0 {
      RecordsAt(k, counter + 1, bodies[1..], encode, i - 1);
      assert bodies[1..][i - 1] == bodies[i];
      assert counter + 1 + (i - 1) == counter + i;
    }
  }

  /** Each pass records its replacements in scan order, numbered consecutively from the counter. */
  lemma {:induction false} RenderRecords(k: MathKind, ps: seq<Piece>, counter: nat, encode: string -> string)
    ensures Render(k, ps, counter, encode).replacements == Records(k, counter, Swapped(k, ps), encode)
    decreases |ps|
  {
    if |ps| > 0 {
      if ps[0].Math? && Replaces(k, ps[0].body) {
        RenderRecords(k, ps[1..], counter + 1, encode);
        var bodies := [ps[0].body] + Swapped(k, ps[1..]);
        assert bodies[0] == ps[0].body && bodies[1..] == Swapped(k, ps[1..]);
      } else {
        RenderRecords(k, ps[1..], counter, encode);
      }
    }
  }

  /** Both passes: display math over the whole text first, then inline math over what is left. */
  function Passes(text: string, encode: string -> string): (r: Rendered)
  {
    var display := Render(DisplayMath, DisplaySplit(text), 0, encode);
    var inline := Render(InlineMath, InlineSplit(display.text), 0, encode);
    Rendered(inline.text, display.replacements + inline.replacements)
  }

  /** The display bodies swapped out, left to right. */
  function DisplayBodies(text: string): seq<string> {
    Swapped(DisplayMath, DisplaySplit(text))
  }

  /** The inline bodies swapped out of what the display pass left, left to right. */
  function InlineBodies(text: string, encode: string -> string): seq<string> {
    Swapped(InlineMath, InlineSplit(Render(DisplayMath, DisplaySplit(text), 0, encode).text))
  }

  /** The recorded list begins with every display element, numbered from 0 in scan order. */
  lemma PassesRecordDisplay(text: string, encode: string -> string)
    ensures |DisplayBodies(text)| <= |Passes(text, encode).replacements|
    ensures Passes(text, encode).replacements[..|DisplayBodies(text)|] == Records(DisplayMath, 0, DisplayBodies(text), encode)
  {
    var display := Render(DisplayMath, DisplaySplit(text), 0, encode);
    var inline := Render(InlineMath, InlineSplit(display.text), 0, encode);
    RenderRecords(DisplayMath, DisplaySplit(text), 0, encode);
    assert Passes(text, encode).replacements[..|display.replacements|] == display.replacements;
  }

  /** After the display elements come the inline ones, numbered from 0 in scan order of the display pass's output. */
  lemma PassesRecordInline(text: string, encode: string -> string)
    ensures |DisplayBodies(text)| <= |Passes(text, encode).replacements|
    ensures Passes(text, encode).replacements[|DisplayBodies(text)|..] == Records(InlineMath, 0, InlineBodies(text, encode), encode)
  {
    var display := Render(DisplayMath, DisplaySplit(text), 0, encode);
    var inline := Render(InlineMath, InlineSplit(display.text), 0, encode);
    RenderRecords(InlineMath, InlineSplit(display.text), 0, encode);
    assert Passes(text, encode).replacements[|display.replacements|..] == inline.replacements;
  }

  /** Position i of the list holds display placeholder i before n, inline placeholder i - n from n on. */
  ghost predicate Layout(reps: seq<Replacement>, n: nat) {
    forall i :: 0 <= i < |reps| ==>
      && reps[i].kind == (if i < n then DisplayMath else InlineMath)
      && reps[i].number == (if i < n then i else i - n)
  }

  /** Display records followed by inline records, each numbered from 0, are laid out this way. */
  lemma RecordsLayout(reps: seq<Replacement>, n: nat, display: seq<string>, inline: seq<string>, encode: string -> string)
    requires n <= |reps|
    requires reps[..n] == Records(DisplayMath, 0, display, encode)
    requires reps[n..] == Records(InlineMath, 0, inline, encode)
    ensures Layout(reps, n)
  {
    forall i | 0 <= i < |reps|
      ensures reps[i].kind == (if i < n then DisplayMath else InlineMath)
      ensures reps[i].number == (if i < n then i else i - n)
    {
      if i < n {
        DisplayRecordAt(reps, n, display, encode, i);
      } else {
        InlineRecordAt(reps, n, inline, encode, i);
      }
    }
  }

  lemma DisplayRecordAt(reps: seq<Replacement>, n: nat, display: seq<string>, encode: string -> string, i: nat)
    requires i < n <= |reps|
    requires reps[..n] == Records(DisplayMath, 0, display, encode)
    ensures reps[i].kind == DisplayMath && reps[i].number == i
  {
    RecordsAt(DisplayMath, 0, display, encode, i);
    assert reps[..n][i] == reps[i];
  }

  lemma InlineRecordAt(reps: seq<Replacement>, n: nat, inline: seq<string>, encode: string -> string, i: nat)
    requires n <= i < |reps|
    requires reps[n..] == Records(InlineMath, 0, inline, encode)
    ensures reps[i].kind == InlineMath && reps[i].number == i - n
  {
    RecordsAt(InlineMath, 0, inline, encode, i - n);
    assert reps[n..][i - n] == reps[i];
  }

  lemma PassesLayout(text: string, encode: string -> string)
    ensures Layout(Passes(text, encode).replacements, |DisplayBodies(text)|)
  {
    PassesRecordDisplay(text, encode);
    PassesRecordInline(text, encode);
    RecordsLayout(Passes(text, encode).replacements, |DisplayBodies(text)|, DisplayBodies(text), InlineBodies(text, encode), encode);
  }

  /** A list laid out this way never repeats a placeholder. */
  lemma LayoutDistinct(reps: seq<Replacement>, n: nat)
    requires Layout(reps, n)
    ensures forall i, j :: 0 <= i < j < |reps| ==> PlaceholderOf(reps[i]) != PlaceholderOf(reps[j])
  {
    forall i, j | 0 <= i < j < |reps|
      ensures PlaceholderOf(reps[i]) != PlaceholderOf(reps[j])
    {
      if PlaceholderOf(reps[i]) == PlaceholderOf(reps[j]) {
        PlaceholderInjective(reps[i].kind, reps[i].number, reps[j].kind, reps[j].number);
      }
    }
  }

  /** No two recorded replacements share a placeholder. */
  lemma PassesDistinct(text: string, encode: string -> string)
    ensures var r := Passes(text, encode);
      forall i, j :: 0 <= i < j < |r.replacements| ==> PlaceholderOf(r.replacements[i]) != PlaceholderOf(r.replacements[j])
  {
    PassesLayout(text, encode);
    LayoutDistinct(Passes(text, encode).replacements, |DisplayBodies(text)|);
  }

  // ---------------------------------------------------------------- restoring

  /** String.prototype.replace with a global pattern that matches `pat` literally: leftmost, non-overlapping. */
  function ReplaceAll(s: string, pat: string, rep: string): string
    requires |pat| > 0
    decreases |s|
  {
    if |s| < |pat| then s
    else if s[..|pat|] == pat then rep + ReplaceAll(s[|pat|..], pat, rep)
    else [s[0]] + ReplaceAll(s[1..], pat, rep)
  }

  /** Replacing a pattern by itself gives back the text: the scan keeps every character it does not replace. */
  lemma {:induction false} ReplaceAllSelf(s: string, pat: string)
    requires |pat| > 0
    ensures ReplaceAll(s, pat, pat) == s
    decreases |s|
  {
    if |s| >= |pat| {
      if s[..|pat|] == pat {
        ReplaceAllSelf(s[|pat|..], pat);
        assert s == s[..|pat|] + s[|pat|..];
      } else {
        ReplaceAllSelf(s[1..], pat);
        assert s == [s[0]] + s[1..];
      }
    }
  }

  /** A global replace steps over a first character that does not start a match. */
  lemma ReplaceAllSkip(s: string, pat: string, rep: string)
    requires |pat| > 0 && |s| > 0
    requires |s| < |pat| || s[..|pat|] != pat
    ensures ReplaceAll(s, pat, rep) == [s[0]] + ReplaceAll(s[1..], pat, rep)
  {
  }

  /** A global replace swaps a match at the start and carries on after it. */
  lemma ReplaceAllHit(pat: string, rest: string, rep: string)
    requires |pat| > 0
    ensures ReplaceAll(pat + rest, pat, rep) == rep + ReplaceAll(rest, pat, rep)
  {
    assert (pat + rest)[..|pat|] == pat;
    assert (pat + rest)[|pat|..] == rest;
  }

  /** No occurrence in s means none in its tail either. */
  lemma AbsentInTail(pat: string, s: string)
    requires |s| > 0
    requires forall o: nat :: !OccursAt(pat, s, o)
    ensures forall o: nat :: !OccursAt(pat, s[1..], o)
  {
    forall o: nat ensures !OccursAt(pat, s[1..], o) {
      assert !OccursAt(pat, s, o + 1);
      if o + |pat| <= |s| - 1 {
        assert s[o + 1..o + 1 + |pat|] == s[1..][o..o + |pat|];
      }
    }
  }

  /** A global replace of a pattern that does not occur changes nothing. */
  lemma {:induction false} ReplaceAllAbsent(s: string, pat: string, rep: string)
    requires |pat| > 0
    requires forall o: nat :: !OccursAt(pat, s, o)
    ensures ReplaceAll(s, pat, rep) == s
    decreases |s|
  {
    if |s| >= |pat| {
      assert !OccursAt(pat, s, 0);
      AbsentInTail(pat, s);
      ReplaceAllAbsent(s[1..], pat, rep);
      ReplaceAllSkip(s, pat, rep);
      assert s == [s[0]] + s[1..];
    }
  }

  /** Each recorded replacement in order: its paragraph-wrapped placeholder first, then every bare one. */
  function Restore(html: string, reps: seq<Replacement>): string
    decreases |reps|
  {
    if |reps| == 0 then html
    else
      var ph, e := PlaceholderOf(reps[0]), ElementOf(reps[0]);
      Restore(ReplaceAll(ReplaceAll(html, "<p>" + ph + "</p>", e), ph, e), reps[1..])
  }

  /** Where the placeholder does not occur, its paragraph form does not either. */
  lemma WrappedAbsent(ph: string, html: string)
    requires forall o: nat :: !OccursAt(ph, html, o)
    ensures forall o: nat :: !OccursAt("<p>" + ph + "</p>", html, o)
  {
    var wrapped := "<p>" + ph + "</p>";
    forall o: nat ensures !OccursAt(wrapped, html, o) {
      assert !OccursAt(ph, html, o + 3);
      if o + |wrapped| <= |html| {
        SliceOfSlice(html, o, o + |wrapped|, 3, 3 + |ph|);
        WrappedMiddle(ph);
      }
    }
  }

  /** A slice of a slice is a slice of the whole. */
  lemma SliceOfSlice(s: string, lo: nat, hi: nat, i: nat, j: nat)
    requires lo <= hi <= |s| && i <= j <= hi - lo
    ensures s[lo..hi][i..j] == s[lo + i..lo + j]
  {
    assert forall t :: 0 <= t < j - i ==> s[lo..hi][i..j][t] == s[lo + i + t];
  }

  /** The paragraph form holds the placeholder right after `<p>`. */
  lemma WrappedMiddle(ph: string)
    ensures ("<p>" + ph + "</p>")[3..3 + |ph|] == ph
  {
    var wrapped := "<p>" + ph + "</p>";
    assert forall t :: 0 <= t < |ph| ==> wrapped[3 + t] == ph[t];
  }

  /** None of the placeholders occurs in the text. */
  ghost predicate NoPlaceholderIn(html: string, reps: seq<Replacement>) {
    forall i, o: nat :: 0 <= i < |reps| ==> !OccursAt(PlaceholderOf(reps[i]), html, o)
  }

  /** Restoring text that holds none of the placeholders changes nothing. */
  lemma {:induction false} RestoreAbsent(html: string, reps: seq<Replacement>)
    requires NoPlaceholderIn(html, reps)
    ensures Restore(html, reps) == html
    decreases |reps|
  {
    if |reps| > 0 {
      var ph, e := PlaceholderOf(reps[0]), ElementOf(reps[0]);
      assert forall o: nat :: !OccursAt(ph, html, o);
      WrappedAbsent(ph, html);
      ReplaceAllAbsent(html, "<p>" + ph + "</p>", e);
      ReplaceAllAbsent(html, ph, e);
      assert NoPlaceholderIn(html, reps[1..]) by {
        forall i, o: nat | 0 <= i < |reps[1..]| ensures !OccursAt(PlaceholderOf(reps[1..][i]), html, o) {
          assert reps[1..][i] == reps[i + 1];
        }
      }
      RestoreAbsent(html, reps[1..]);
    }
  }

  /** The fallback when markdown throws: every newline becomes `<br>`. */
  function BreakLines(s: string): string
    decreases |s|
  {
    if |s| == 0 then "" else (if s[0] == '\n' then "<br>" else [s[0]]) + BreakLines(s[1..])
  }

  /** The fallback of a non-empty text is its first character's image followed by the fallback of the rest. */
  lemma BreakLinesCons(u: string)
    requires |u| > 0
    ensures BreakLines(u) == (if u[0] == '\n' then "<br>" else [u[0]]) + BreakLines(u[1..])
  {
  }

  /** The fallback leaves no newline, and leaves text without one as it is. */
  lemma {:induction false} BreakLinesPlain(s: string)
    ensures '\n' !in BreakLines(s)
    ensures '\n' !in s ==> BreakLines(s) == s
    decreases |s|
  {
    if |s| > 0 {
      BreakLinesPlain(s[1..]);
      BreakLinesCons(s);
      assert s == [s[0]] + s[1..];
    }
  }

  /** A newline-free prefix passes through the fallback unchanged. */
  lemma {:induction false} BreakLinesKeepsPrefix(s: string, n: nat)
    requires n <= |s|
    requires '\n' !in s[..n]
    ensures BreakLines(s) == s[..n] + BreakLines(s[n..])
    decreases n
  {
    if n > 0 {
      var u := s[1..];
      assert s[..n] == [s[0]] + u[..n - 1];
      assert u[n - 1..] == s[n..];
      BreakLinesKeepsPrefix(u, n - 1);
      BreakLinesCons(s);
      calc {
        BreakLines(s);
        [s[0]] + BreakLines(u);
        [s[0]] + (u[..n - 1] + BreakLines(s[n..]));
        ([s[0]] + u[..n - 1]) + BreakLines(s[n..]);
      }
    }
  }

  /** The fallback starts with `<br>` only where the text starts with a newline or with `<br>` itself. */
  lemma BreakLinesNoFalseBreak(s: string)
    requires |s| > 0 && s[0] != '\n'
    requires !OccursAt("<br>", s, 0)
    ensures |BreakLines(s)| < 4 || BreakLines(s)[..4] != "<br>"
  {
    var t := BreakLines(s);
    var k := Text.IndexOf(s, '\n');
    if k >= 4 {
      BreakLinesKeepsPrefix(s, 4);
      assert t[..4] == s[..4];
    } else if k < |s| {
      BreakLinesKeepsPrefix(s, k);
      BreakLinesCons(s[k..]);
      assert t[k] == '<';
      if |t| >= 4 {
        assert t[..4][k] == '<';
      }
    } else {
      BreakLinesKeepsPrefix(s, |s|);
      assert t == s;
    }
  }

  /** Each `<br>` of the fallback stands for one newline: mapping them back gives the text, when it had no `<br>` of its own. */
  lemma {:induction false} BreakLinesInverse(s: string)
    requires forall o: nat :: !OccursAt("<br>", s, o)
    ensures ReplaceAll(BreakLines(s), "<br>", "\n") == s
    decreases |s|
  {
    if |s| > 0 {
      AbsentInTail("<br>", s);
      BreakLinesInverse(s[1..]);
      BreakLinesCons(s);
      var rest := BreakLines(s[1..]);
      if s[0] == '\n' {
        ReplaceAllHit("<br>", rest, "\n");
        assert s == "\n" + s[1..];
      } else {
        assert !OccursAt("<br>", s, 0);
        BreakLinesNoFalseBreak(s);
        var t := [s[0]] + rest;
        ReplaceAllSkip(t, "<br>", "\n");
        assert t[1..] == rest;
        assert s == [s[0]] + s[1..];
      }
    }
  }

  /** formatMarkdownWithLatex(text); `markdown` is None when the renderer throws. */
  function FormatMarkdownWithLatex(text: string, encode: string -> string, markdown: string -> Option<string>): (r: string)
    ensures text == "" ==> r == ""
  {
    if text == "" then ""
    else
      var p := Passes(text, encode);
      var html := match markdown(p.text)
        case Some(h) => h
        case None => BreakLines(p.text);
      Restore(html, p.replacements)
  }

  /** Placeholders are letters and digits: no dollar sign, no newline. */
  lemma PlaceholderPlain(k: MathKind, i: nat)
    ensures forall t :: 0 <= t < |Placeholder(k, i)| ==> Placeholder(k, i)[t] != '$' && Placeholder(k, i)[t] != '\n'
  {
    var p, d := Placeholder(k, i), Text.NatToDecimal(i);
    LettersAreNotDigits(k);
    forall t | 0 <= t < |p| ensures p[t] != '$' && p[t] != '\n' {
      if t < |Tag(k)| {
        assert p[t] == Tag(k)[t];
      } else if t < |Tag(k)| + |d| {
        assert p[t] == d[t - |Tag(k)|];
      } else {
        assert p[t] == "PLACEHOLDER"[t - |Tag(k)| - |d|];
      }
    }
  }

  /** Text without a dollar sign gives the display scan nothing to swap. */
  lemma {:induction false} NoDollarNoDisplay(s: string)
    requires forall j :: 0 <= j < |s| ==> s[j] != '$'
    ensures Swapped(DisplayMath, DisplaySplit(s)) == []
    decreases |s|
  {
    if |s| > 0 {
      NoDollarNoDisplay(s[1..]);
      assert DisplaySplit(s) == [Lit(s[0])] + DisplaySplit(s[1..]);
    }
  }

  /** Text without a dollar sign gives the inline scan nothing to swap. */
  lemma {:induction false} NoDollarNoInline(s: string)
    requires forall j :: 0 <= j < |s| ==> s[j] != '$'
    ensures Swapped(InlineMath, InlineSplit(s)) == []
    decreases |s|
  {
    if |s| > 0 {
      NoDollarNoInline(s[1..]);
      assert InlineSplit(s) == [Lit(s[0])] + InlineSplit(s[1..]);
    }
  }

  /** Both passes leave text without a dollar sign as it is and record nothing. */
  lemma NoDollarPasses(s: string, encode: string -> string)
    requires forall j :: 0 <= j < |s| ==> s[j] != '$'
    ensures Passes(s, encode) == Rendered(s, [])
  {
    NoDollarNoDisplay(s);
    DisplaySplitRoundTrip(s);
    var display := Render(DisplayMath, DisplaySplit(s), 0, encode);
    assert display.text == s;
    NoDollarNoInline(s);
    InlineSplitRoundTrip(s);
  }

  /** Without any dollar sign the result is the markdown rendering, or the line-broken text when markdown throws. */
  lemma NoMathPassesThrough(text: string, encode: string -> string, markdown: string -> Option<string>)
    requires forall j :: 0 <= j < |text| ==> text[j] != '$'
    ensures FormatMarkdownWithLatex(text, encode, markdown) ==
      if text == "" then "" else match markdown(text) case Some(h) => h case None => BreakLines(text)
  {
    NoDollarPasses(text, encode);
  }

  /** The display match of `$$b$$` closes right after b. */
  lemma SingleDisplayClose(b: string)
    requires forall j :: 0 <= j < |b| ==> b[j] != '$'
    ensures DisplayClose("$$" + b + "$$") == Some(|b| + 2)
  {
    var s := "$$" + b + "$$";
    var t := s[2..];
    assert t == b + "$$";
    assert t[|b|] == '$';
    forall j | 0 <= j < |b| ensures t[j] != '$' {
      assert t[j] == b[j];
    }
    assert Text.IndexOf(t, '$') == |b|;
    assert s[|b| + 3] == '$';
  }

  /** `$$b$$` is one display match whose body is b. */
  lemma SingleDisplaySplit(b: string)
    requires forall j :: 0 <= j < |b| ==> b[j] != '$'
    ensures DisplaySplit("$$" + b + "$$") == [Math(b)]
  {
    var s := "$$" + b + "$$";
    SingleDisplayClose(b);
    assert s[2..|b| + 2] == b;
    assert s[|b| + 4..] == "";
    assert DisplaySplit(s) == [Math(b)] + DisplaySplit("");
  }

  /** A lone `$$b$$` records one display element and no inline one: the display pass runs first and its
      placeholder gives the inline pass nothing to split. */
  lemma SingleDisplayPasses(b: string, encode: string -> string)
    requires forall j :: 0 <= j < |b| ==> b[j] != '$'
    ensures Passes("$$" + b + "$$", encode) ==
      Rendered(Placeholder(DisplayMath, 0), [Replacement(DisplayMath, 0, encode(Trim(b)))])
  {
    var ph := Placeholder(DisplayMath, 0);
    SingleDisplaySplit(b);
    var display := Render(DisplayMath, [Math(b)], 0, encode);
    assert [Math(b)][1..] == [];
    assert display == Rendered(ph + "", [Replacement(DisplayMath, 0, encode(Trim(b)))]);
    assert ph + "" == ph;
    PlaceholderPlain(DisplayMath, 0);
    NoDollarNoInline(ph);
    InlineSplitRoundTrip(ph);
  }

  /** An inline match at the head of a text closes at the first `$` after the opening one. */
  lemma InlineHeadClose(b: string, rest: string)
    requires forall j :: 0 <= j < |b| ==> b[j] != '$' && b[j] != '\n'
    ensures InlineClose("$" + b + "$" + rest) == Some(|b| + 1)
  {
    var s := "$" + b + "$" + rest;
    var t := s[1..];
    assert t == b + "$" + rest;
    assert t[|b|] == '$';
    forall j | 0 <= j < |b| ensures t[j] != '$' && t[j] != '\n' {
      assert t[j] == b[j];
    }
    assert IndexOfEither(t, '$', '\n') == |b|;
  }

  /** The inline scan takes `$b$` at the head of a text as one match and scans the rest afresh after it. */
  lemma InlineHeadSplit(b: string, rest: string)
    requires forall j :: 0 <= j < |b| ==> b[j] != '$' && b[j] != '\n'
    ensures InlineSplit("$" + b + "$" + rest) == [Math(b)] + InlineSplit(rest)
  {
    var s := "$" + b + "$" + rest;
    InlineHeadClose(b, rest);
    assert s[1..|b| + 1] == b;
    assert s[|b| + 2..] == rest;
  }

  /**
   * A blank inline body is left as it was, delimiters included, and does not
   * use up a number: the text after its closing `$` is scanned and numbered
   * as if the match were not there.
   */
  lemma BlankInlineVerbatim(b: string, rest: string, counter: nat, encode: string -> string)
    requires forall j :: 0 <= j < |b| ==> b[j] != '$' && b[j] != '\n'
    requires Trim(b) == ""
    ensures var tail := Render(InlineMath, InlineSplit(rest), counter, encode);
            Render(InlineMath, InlineSplit("$" + b + "$" + rest), counter, encode)
              == Rendered("$" + b + "$" + tail.text, tail.replacements)
  {
    InlineHeadSplit(b, rest);
    var ps := [Math(b)] + InlineSplit(rest);
    assert ps[0] == Math(b) && ps[1..] == InlineSplit(rest);
  }

  /** A non-blank inline body becomes the current inline placeholder and its record; the rest is numbered from the next counter. */
  lemma InlineMatchNumbered(b: string, rest: string, counter: nat, encode: string -> string)
    requires forall j :: 0 <= j < |b| ==> b[j] != '$' && b[j] != '\n'
    requires Trim(b) != ""
    ensures var tail := Render(InlineMath, InlineSplit(rest), counter + 1, encode);
            Render(InlineMath, InlineSplit("$" + b + "$" + rest), counter, encode)
              == Rendered(Placeholder(InlineMath, counter) + tail.text,
                          [Replacement(InlineMath, counter, encode(Trim(b)))] + tail.replacements)
  {
    InlineHeadSplit(b, rest);
    var ps := [Math(b)] + InlineSplit(rest);
    assert ps[0] == Math(b) && ps[1..] == InlineSplit(rest);
  }

  /** Replacing a whole text that is exactly the pattern gives the replacement. */
  lemma ReplaceWhole(pat: string, rep: string)
    requires |pat| > 0
    ensures ReplaceAll(pat, pat, rep) == rep
  {
    assert pat[..|pat|] == pat;
    assert pat[|pat|..] == "";
  }

  /** Restoring with one replacement: its paragraph form, then its bare form. */
  lemma RestoreSingle(html: string, r: Replacement)
    ensures Restore(html, [r]) ==
      ReplaceAll(ReplaceAll(html, "<p>" + PlaceholderOf(r) + "</p>", ElementOf(r)), PlaceholderOf(r), ElementOf(r))
  {
    assert [r][1..] == [];
  }

  /** When markdown throws, a lone `$$b$$` comes back as its display element. */
  lemma SingleDisplayFallback(b: string, encode: string -> string, markdown: string -> Option<string>)
    requires forall j :: 0 <= j < |b| ==> b[j] != '$'
    requires markdown(Placeholder(DisplayMath, 0)).None?
    ensures FormatMarkdownWithLatex("$$" + b + "$$", encode, markdown) == Element(DisplayMath, encode(Trim(b)))
  {
    var r := Replacement(DisplayMath, 0, encode(Trim(b)));
    var ph, e := PlaceholderOf(r), ElementOf(r);
    SingleDisplayPasses(b, encode);
    FormatSteps("$$" + b + "$$", encode, markdown);
    PlaceholderPlain(DisplayMath, 0);
    assert '\n' !in ph;
    BreakLinesPlain(ph);
    RestoreSingle(ph, r);
    assert ReplaceAll(ph, "<p>" + ph + "</p>", e) == ph;
    ReplaceWhole(ph, e);
  }

  /** The result is the restore pass over the markdown of the passes' text, or over its fallback. */
  lemma FormatSteps(text: string, encode: string -> string, markdown: string -> Option<string>)
    requires text != ""
    ensures var p := Passes(text, encode);
      FormatMarkdownWithLatex(text, encode, markdown) ==
        Restore(match markdown(p.text) case Some(h) => h case None => BreakLines(p.text), p.replacements)
  {
  }

  /** Restoring a paragraph that holds only a placeholder replaces the whole paragraph with the element. */
  lemma RestoreParagraph(r: Replacement)
    requires forall o: nat :: !OccursAt(PlaceholderOf(r), ElementOf(r) + "\n", o)
    ensures Restore("<p>" + PlaceholderOf(r) + "</p>" + "\n", [r]) == ElementOf(r) + "\n"
  {
    var ph, e := PlaceholderOf(r), ElementOf(r);
    var wrapped := "<p>" + ph + "</p>";
    RestoreSingle(wrapped + "\n", r);
    ReplaceAllHit(wrapped, "\n", e);
    assert ReplaceAll("\n", wrapped, e) == "\n";
    ReplaceAllAbsent(e + "\n", ph, e);
  }

  /** When markdown wraps the placeholder in a paragraph, the paragraph form is replaced first, so the element
      does not end up inside a `<p>`. */
  lemma SingleDisplayParagraph(b: string, encode: string -> string, markdown: string -> Option<string>)
    requires forall j :: 0 <= j < |b| ==> b[j] != '$'
    requires markdown(Placeholder(DisplayMath, 0)) == Some("<p>" + Placeholder(DisplayMath, 0) + "</p>" + "\n")
    requires forall o: nat :: !OccursAt(Placeholder(DisplayMath, 0), Element(DisplayMath, encode(Trim(b))) + "\n", o)
    ensures FormatMarkdownWithLatex("$$" + b + "$$", encode, markdown) == Element(DisplayMath, encode(Trim(b))) + "\n"
  {
    var r := Replacement(DisplayMath, 0, encode(Trim(b)));
    SingleDisplayPasses(b, encode);
    RestoreParagraph(r);
    FormatSteps("$$" + b + "$$", encode, markdown);
  }
}

=== FILE: page_processing.dfy ===
/**
 * The page-processing pipeline (src/lib/server/pageProcessing.ts): the
 * validator for the model's JSON answer, processSinglePage (gate, extraction,
 * reconciliation), one processQueue step over the uploads table and the
 * process-wide idle flag, and the two scheduler ticks.
 *
 * The AI model is an oracle `extract` from page id to the parsed JSON object,
 * None when the response text does not parse. The clock is the parameter
 * `nowIso`, the current UTC timestamp in ISO form.
 */
module PageProcessing {
  import opened Wrappers
  import opened Store
  import UsageLimiter
  import Reconciler

  datatype QuestionEntry = QuestionEntry(number: int, content: string, includesDiagram: bool)
  datatype AnswerEntry = AnswerEntry(number: int, content: string)

  /** The parsed response object; an absent or null field is None. */
  datatype RawResponse = RawResponse(
    pageType: Option<string>, test: Option<string>,
    questions: Option<seq<QuestionEntry>>, answers: Option<seq<AnswerEntry>>)

  /** JavaScript truthiness of an optional string: present and not empty. */
  predicate Truthy(s: Option<string>) {
    s.Some? && s.value != ""
  }

  /** The structural check of the response; a rejected response yields None, an accepted one is returned as it is. */
  function Validate(raw: RawResponse): (r: Option<RawResponse>)
    ensures r.None? <==>
      || !Truthy(raw.pageType)
      || (raw.pageType != Some("none") && !Truthy(raw.test))
      || (raw.pageType == Some("questions") && raw.questions.None?)
      || (raw.pageType == Some("answers") && raw.answers.None?)
    ensures r.Some? ==> r.value == raw
  {
    match raw.pageType
    case None => None
    case Some(kind) =>
      if kind == "" then None
      else if kind == "none" then Some(raw)
      else if !Truthy(raw.test) then None
      else if kind == "questions" then (if raw.questions.Some? then Some(raw) else None)
      else if kind == "answers" then (if raw.answers.Some? then Some(raw) else None)
      else Some(raw)
  }

  /** The question entries of a page as writes of the question columns. */
  function QuestionWrites(entries: seq<QuestionEntry>, pageId: string): (ws: seq<Reconciler.Write>)
    ensures |ws| == |entries| && Reconciler.Uniform(ws)
    ensures forall i :: 0 <= i < |ws| ==>
      ws[i].number == entries[i].number && ws[i].patch.QuestionPatch? &&
      ws[i].patch == Reconciler.QuestionPatch(entries[i].content, pageId, entries[i].includesDiagram)
  {
    seq(|entries|, i requires 0 <= i < |entries| =>
      Reconciler.Write(entries[i].number, Reconciler.QuestionPatch(entries[i].content, pageId, entries[i].includesDiagram)))
  }

  /** The answer entries of a page as writes of the answer columns. */
  function AnswerWrites(entries: seq<AnswerEntry>, pageId: string): (ws: seq<Reconciler.Write>)
    ensures |ws| == |entries| && Reconciler.Uniform(ws)
    ensures forall i :: 0 <= i < |ws| ==>
      ws[i].number == entries[i].number && ws[i].patch.AnswerPatch? &&
      ws[i].patch == Reconciler.AnswerPatch(entries[i].content, pageId)
  {
    seq(|entries|, i requires 0 <= i < |entries| =>
      Reconciler.Write(entries[i].number, Reconciler.AnswerPatch(entries[i].content, pageId)))
  }

  /** The writes a validated result makes: none unless it is a questions or answers page. */
  function PageWrites(v: RawResponse, pageId: string): (ws: seq<Reconciler.Write>)
    ensures Reconciler.Uniform(ws)
    ensures v.pageType != Some("questions") && v.pageType != Some("answers") ==> ws == []
  {
    if v.pageType == Some("questions") && Truthy(v.test) && v.questions.Some? then QuestionWrites(v.questions.value, pageId)
    else if v.pageType == Some("answers") && Truthy(v.test) && v.answers.Some? then AnswerWrites(v.answers.value, pageId)
    else []
  }

  /** The reconciliation step for a validated result. */
  function Reconcile(rows: seq<QuestionRow>, competitionId: string, pageId: string, v: RawResponse): seq<QuestionRow> {
    Reconciler.UpsertAll(rows, competitionId, if v.test.Some? then v.test.value else "", PageWrites(v, pageId))
  }

  datatype PageOutcome = PageOutcome(result: Option<RawResponse>, limiter: UsageLimiter.Limiter, questions: seq<QuestionRow>)

  /** The gate processSinglePage consults. */
  function PageGate(limiter: UsageLimiter.Limiter, nowIso: string): UsageLimiter.Gate {
    UsageLimiter.IsAutoGenerationAllowed(limiter, UsageLimiter.Flash, nowIso)
  }

  /** processSinglePage(competitionId, pageId, {override}). */
  function ProcessSinglePage(
    limiter: UsageLimiter.Limiter, rows: seq<QuestionRow>, competitionId: string, pageId: string,
    override: bool, nowIso: string, extract: string -> Option<RawResponse>): (o: PageOutcome)
    ensures override ==> o.limiter == limiter
    ensures !override ==> o.limiter == PageGate(limiter, nowIso).state
    ensures !override && !PageGate(limiter, nowIso).allowed ==> o.result.None?
    ensures extract(pageId).None? ==> o.result.None?
    ensures o.result.None? ==> o.questions == rows
    ensures o.result.Some? ==>
      && extract(pageId).Some? && Validate(extract(pageId).value) == o.result
      && (override || PageGate(limiter, nowIso).allowed)
    ensures o.result.Some? && o.result.value.pageType != Some("questions") && o.result.value.pageType != Some("answers") ==>
      o.questions == rows
    ensures o.result.Some? ==> o.questions == Reconcile(rows, competitionId, pageId, o.result.value)
    ensures (override || PageGate(limiter, nowIso).allowed) && extract(pageId).Some? ==>
      o.result == Validate(extract(pageId).value)
  {
    var gate := PageGate(limiter, nowIso);
    if !override && !gate.allowed then PageOutcome(None, gate.state, rows)
    else
      var lim := if override then limiter else gate.state;
      match extract(pageId)
      case None => PageOutcome(None, lim, rows)
      case Some(raw) =>
        match Validate(raw)
        case None => PageOutcome(None, lim, rows)
        case Some(v) => PageOutcome(Some(v), lim, Reconcile(rows, competitionId, pageId, v))
  }

  /** A closed gate answers before the page is fetched: the outcome is the same whatever the model would say. */
  lemma GateDenialIgnoresExtractor(
    limiter: UsageLimiter.Limiter, rows: seq<QuestionRow>, competitionId: string, pageId: string, nowIso: string,
    extract1: string -> Option<RawResponse>, extract2: string -> Option<RawResponse>)
    requires !PageGate(limiter, nowIso).allowed
    ensures ProcessSinglePage(limiter, rows, competitionId, pageId, false, nowIso, extract1)
         == ProcessSinglePage(limiter, rows, competitionId, pageId, false, nowIso, extract2)
  {
  }

  /** Processing the same page again with the same model answer leaves the questions table as the first run left it,
      whatever either run's override flag and whatever the limiter has become in between (as when the queue steps
      back after a failed page), as long as the first run was let through the gate: a first run the gate refused
      wrote nothing, so a second run the gate lets through does the first write. */
  lemma ReprocessingIsIdempotent(
    limiter: UsageLimiter.Limiter, rows: seq<QuestionRow>, competitionId: string, pageId: string,
    override1: bool, limiter2: UsageLimiter.Limiter, override2: bool, nowIso: string, nowIso2: string,
    extract: string -> Option<RawResponse>)
    ensures var first := ProcessSinglePage(limiter, rows, competitionId, pageId, override1, nowIso, extract);
            var again := ProcessSinglePage(limiter2, first.questions, competitionId, pageId, override2, nowIso2, extract);
            (override1 || PageGate(limiter, nowIso).allowed) ==> again.questions == first.questions
  {
    var first := ProcessSinglePage(limiter, rows, competitionId, pageId, override1, nowIso, extract);
    if first.result.Some? {
      var v := first.result.value;
      Reconciler.Idempotent(rows, competitionId, if v.test.Some? then v.test.value else "", PageWrites(v, pageId));
    }
  }

  /** The process state the queue walker works on: the idle flag and the tables it reads and writes. */
  datatype Pipeline = Pipeline(idle: bool, uploads: seq<Upload>, questions: seq<QuestionRow>, limiter: UsageLimiter.Limiter)

  predicate IsProcessing(u: Upload) {
    u.state == Processing
  }

  /** getFirstRow(uploads, [state = "processing"]). */
  function FirstProcessing(uploads: seq<Upload>): Option<nat> {
    FirstIndex(uploads, IsProcessing)
  }

  /** The cursor after a step on its upload: back one on failure (not below 0), forward one on success before the last page. */
  function StepCursor(doc: Upload, succeeded: bool): (d: Upload)
    requires doc.nextPage < |doc.pages|
    ensures d.id == doc.id && d.competitionId == doc.competitionId && d.pages == doc.pages
    ensures !succeeded ==> d.state == doc.state && d.nextPage == (if doc.nextPage > 0 then doc.nextPage - 1 else 0)
    ensures succeeded && doc.nextPage + 1 < |doc.pages| ==> d.state == doc.state && d.nextPage == doc.nextPage + 1
    ensures succeeded && doc.nextPage + 1 == |doc.pages| ==> d.state == Processed && d.nextPage == doc.nextPage
    ensures d.nextPage < |d.pages|
  {
    if !succeeded then (if doc.nextPage > 0 then doc.(nextPage := doc.nextPage - 1) else doc)
    else if doc.nextPage < |doc.pages| - 1 then doc.(nextPage := doc.nextPage + 1)
    else doc.(state := Processed)
  }

  /** processQueue: one step of the queue walker. */
  function ProcessQueue(w: Pipeline, nowIso: string, extract: string -> Option<RawResponse>): (r: Pipeline)
    ensures |r.uploads| == |w.uploads|
    ensures forall j :: 0 <= j < |w.uploads| ==>
      && r.uploads[j].id == w.uploads[j].id && r.uploads[j].pages == w.uploads[j].pages
      && r.uploads[j].competitionId == w.uploads[j].competitionId
    ensures FirstProcessing(w.uploads).None? ==> r == w.(idle := true)
    ensures FirstProcessing(w.uploads).Some? ==>
      forall j :: 0 <= j < |w.uploads| && j != FirstProcessing(w.uploads).value ==> r.uploads[j] == w.uploads[j]
    ensures forall j :: 0 <= j < |w.uploads| && w.uploads[j].nextPage < |w.uploads[j].pages| ==>
      r.uploads[j].nextPage < |r.uploads[j].pages|
    ensures forall j :: 0 <= j < |w.uploads| && w.uploads[j].nextPage <= |w.uploads[j].pages| ==>
      r.uploads[j].nextPage <= |r.uploads[j].pages|
  {
    match FirstProcessing(w.uploads)
    case None => w.(idle := true)
    case Some(i) =>
      var doc := w.uploads[i];
      if doc.nextPage >= |doc.pages| then
        w.(uploads := w.uploads[i := doc.(state := Processed)])
      else
        var o := ProcessSinglePage(w.limiter, w.questions, doc.competitionId, doc.pages[doc.nextPage], false, nowIso, extract);
        Pipeline(o.result.None?, w.uploads[i := StepCursor(doc, o.result.Some?)], o.questions, o.limiter)
  }

  /** An upload whose cursor has passed its last page is marked processed, with no extraction and the idle flag untouched. */
  lemma ExhaustedUploadCompletes(w: Pipeline, nowIso: string, extract: string -> Option<RawResponse>)
    requires FirstProcessing(w.uploads).Some?
    requires var doc := w.uploads[FirstProcessing(w.uploads).value]; doc.nextPage >= |doc.pages|
    ensures var r := ProcessQueue(w, nowIso, extract);
            var i := FirstProcessing(w.uploads).value;
            && r.uploads[i].state == Processed && r.uploads[i].nextPage == w.uploads[i].nextPage
            && r.idle == w.idle && r.questions == w.questions && r.limiter == w.limiter
  {
  }

  /**
   * The page at the cursor of the first processing upload is processed; a
   * failed page moves the cursor back one (not below 0) and parks the
   * processor without writing questions; a processed page moves it forward,
   * or marks the upload processed at the last page, and keeps the processor awake.
   */
  lemma PageStep(w: Pipeline, nowIso: string, extract: string -> Option<RawResponse>)
    requires FirstProcessing(w.uploads).Some?
    requires var doc := w.uploads[FirstProcessing(w.uploads).value]; doc.nextPage < |doc.pages|
    ensures var r := ProcessQueue(w, nowIso, extract);
            var i := FirstProcessing(w.uploads).value;
            var doc := w.uploads[i];
            var o := ProcessSinglePage(w.limiter, w.questions, doc.competitionId, doc.pages[doc.nextPage], false, nowIso, extract);
            && r.limiter == o.limiter && r.questions == o.questions
            && (o.result.None? ==>
                  r.idle && r.questions == w.questions && r.uploads[i].state == Processing
                  && r.uploads[i].nextPage == (if doc.nextPage > 0 then doc.nextPage - 1 else 0))
            && (o.result.Some? ==> !r.idle)
            && (o.result.Some? && doc.nextPage + 1 < |doc.pages| ==>
                  r.uploads[i].nextPage == doc.nextPage + 1 && r.uploads[i].state == Processing)
            && (o.result.Some? && doc.nextPage + 1 == |doc.pages| ==>
                  r.uploads[i].nextPage == doc.nextPage && r.uploads[i].state == Processed)
  {
  }

  /** A page the gate lets through and the model answers validly is written and moves the upload on. */
  lemma ValidPageAdvances(w: Pipeline, nowIso: string, extract: string -> Option<RawResponse>)
    requires FirstProcessing(w.uploads).Some?
    requires var doc := w.uploads[FirstProcessing(w.uploads).value]; doc.nextPage < |doc.pages|
    requires PageGate(w.limiter, nowIso).allowed
    requires var doc := w.uploads[FirstProcessing(w.uploads).value];
             extract(doc.pages[doc.nextPage]).Some? && Validate(extract(doc.pages[doc.nextPage]).value).Some?
    ensures var r := ProcessQueue(w, nowIso, extract);
            var i := FirstProcessing(w.uploads).value;
            var doc := w.uploads[i];
            var page := doc.pages[doc.nextPage];
            && !r.idle
            && r.questions == Reconcile(w.questions, doc.competitionId, page, extract(page).value)
            && r.uploads[i] == (if doc.nextPage + 1 < |doc.pages| then doc.(nextPage := doc.nextPage + 1)
                                else doc.(state := Processed))
  {
    PageStep(w, nowIso, extract);
  }

  /** Outstanding work of one upload: pages left to process, plus one for the final state change. */
  function UploadWork(u: Upload): nat {
    if !IsProcessing(u) then 0
    else if u.nextPage <= |u.pages| then |u.pages| - u.nextPage + 1
    else 1
  }

  function Work(uploads: seq<Upload>): nat
    decreases |uploads|
  {
    if |uploads| == 0 then 0 else UploadWork(uploads[0]) + Work(uploads[1..])
  }

  lemma {:induction false} WorkUpdate(uploads: seq<Upload>, i: nat, u: Upload)
    requires i < |uploads|
    ensures Work(uploads[i := u]) + UploadWork(uploads[i]) == Work(uploads) + UploadWork(u)
    decreases |uploads|
  {
    if i > 0 {
      assert uploads[i := u][1..] == uploads[1..][i - 1 := u];
      WorkUpdate(uploads[1..], i - 1, u);
    } else {
      assert uploads[i := u][1..] == uploads[1..];
    }
  }

  /** Every step either reduces the outstanding work or parks the processor without writing a question row. */
  lemma Progress(w: Pipeline, nowIso: string, extract: string -> Option<RawResponse>)
    requires FirstProcessing(w.uploads).Some?
    ensures var r := ProcessQueue(w, nowIso, extract);
            Work(r.uploads) < Work(w.uploads) || (r.idle && r.questions == w.questions)
  {
    var i := FirstProcessing(w.uploads).value;
    var r := ProcessQueue(w, nowIso, extract);
    WorkUpdate(w.uploads, i, r.uploads[i]);
    assert r.uploads == w.uploads[i := r.uploads[i]];
    UploadProgress(w, nowIso, extract);
  }

  /** The step on the first processing upload reduces that upload's work, or parks the processor without writes. */
  lemma UploadProgress(w: Pipeline, nowIso: string, extract: string -> Option<RawResponse>)
    requires FirstProcessing(w.uploads).Some?
    ensures var r := ProcessQueue(w, nowIso, extract);
            var i := FirstProcessing(w.uploads).value;
            UploadWork(r.uploads[i]) < UploadWork(w.uploads[i]) || (r.idle && r.questions == w.questions)
  {
    var i := FirstProcessing(w.uploads).value;
    assert IsProcessing(w.uploads[i]);
  }

  /** The fast (15 s) tick: nothing while idle, otherwise one queue step. */
  function FastTick(w: Pipeline, nowIso: string, extract: string -> Option<RawResponse>): (r: Pipeline)
    ensures w.idle ==> r == w
    ensures !w.idle ==> r == ProcessQueue(w, nowIso, extract)
  {
    if w.idle then w else ProcessQueue(w, nowIso, extract)
  }

  /** The slow (10 min) tick: while idle, a listRows(processing, limit 1) that finds a row wakes the processor. */
  function SlowTick(w: Pipeline): (r: Pipeline)
    ensures r.uploads == w.uploads && r.questions == w.questions && r.limiter == w.limiter
    ensures r.idle <==> w.idle && forall j :: 0 <= j < |w.uploads| ==> !IsProcessing(w.uploads[j])
  {
    if w.idle then
      var found := Filter(w.uploads, IsProcessing);
      if |found| > 0 then
        assert found[0] in w.uploads && IsProcessing(found[0]);
        assert exists j :: 0 <= j < |w.uploads| && w.uploads[j] == found[0];
        w.(idle := false)
      else w
    else w
  }

  /** notifyOfNewUpload: always wakes the processor. */
  function NotifyOfNewUpload(w: Pipeline): (r: Pipeline)
    ensures !r.idle && r == w.(idle := false)
  {
    w.(idle := false)
  }

  /** A slow tick that finds work makes the next fast tick process the first processing upload. */
  lemma SlowTickRearms(w: Pipeline, nowIso: string, extract: string -> Option<RawResponse>)
    requires w.idle && FirstProcessing(w.uploads).Some?
    ensures FastTick(SlowTick(w), nowIso, extract) == ProcessQueue(w.(idle := false), nowIso, extract)
  {
    var i := FirstProcessing(w.uploads).value;
    assert IsProcessing(w.uploads[i]);
  }

  /** A notification makes the next fast tick walk the queue whatever the idle flag was; with nothing to process,
      that walk puts the processor straight back to idle and changes no table. */
  lemma NotifyThenFastTick(w: Pipeline, nowIso: string, extract: string -> Option<RawResponse>)
    ensures FastTick(NotifyOfNewUpload(w), nowIso, extract) == ProcessQueue(w.(idle := false), nowIso, extract)
    ensures FirstProcessing(w.uploads).None? ==> FastTick(NotifyOfNewUpload(w), nowIso, extract) == w.(idle := true)
  {
  }
}

=== FILE: reconciler.dfy ===
/**
 * The reconciler inside processSinglePage (src/lib/server/pageProcessing.ts):
 * every entry of a validated page result is an upsert on the questions table
 * keyed by (competitionId, test, questionNumber). A questions page writes the
 * question columns, an answers page the answer columns; an existing row keeps
 * every other column.
 */
module Reconciler {
  import opened Wrappers
  import opened Store

  /** The columns one entry writes: those of a question entry, or those of an answer entry. */
  datatype Patch =
    | QuestionPatch(content: string, pageId: string, includesDiagram: bool)
    | AnswerPatch(content: string, pageId: string)

  /** One entry of a page result: its question number and the columns it writes. */
  datatype Write = Write(number: int, patch: Patch)

  /** updateRow with the entry's columns: only those columns change. */
  function ApplyPatch(row: QuestionRow, p: Patch): (r: QuestionRow)
    ensures KeyOf(r) == KeyOf(row) && r.pageId == row.pageId && r.region == row.region
    ensures p.QuestionPatch? ==>
      && r.questionContent == Some(p.content) && r.questionPageId == Some(p.pageId)
      && r.includesDiagram == Some(p.includesDiagram)
      && r.answerContent == row.answerContent && r.answerPageId == row.answerPageId
    ensures p.AnswerPatch? ==>
      && r.answerContent == Some(p.content) && r.answerPageId == Some(p.pageId)
      && r.questionContent == row.questionContent && r.questionPageId == row.questionPageId
      && r.includesDiagram == row.includesDiagram
  {
    match p
    case QuestionPatch(content, pageId, diagram) =>
      row.(questionContent := Some(content), questionPageId := Some(pageId), includesDiagram := Some(diagram))
    case AnswerPatch(content, pageId) =>
      row.(answerContent := Some(content), answerPageId := Some(pageId))
  }

  /** createRow with the key and the entry's columns and nothing else. */
  function NewRow(key: Key, p: Patch): QuestionRow {
    ApplyPatch(QuestionRow(key.competitionId, key.test, key.number, None, None, None, None, None, None, None), p)
  }

  /** The row already holds what the patch would write. */
  predicate Carries(row: QuestionRow, p: Patch) {
    ApplyPatch(row, p) == row
  }

  /** One entry: update the first row with the key, or create the key's row when there is none. */
  function Upsert(rows: seq<QuestionRow>, key: Key, p: Patch): (r: seq<QuestionRow>)
    ensures FirstWithKey(r, key).Some? && Carries(r[FirstWithKey(r, key).value], p)
    ensures |r| == |rows| + (if FirstWithKey(rows, key).Some? then 0 else 1)
    ensures FirstWithKey(rows, key).Some? ==> FirstWithKey(r, key) == FirstWithKey(rows, key)
    ensures forall j :: 0 <= j < |rows| && FirstWithKey(rows, key) != Some(j) ==> r[j] == rows[j]
    ensures forall j :: 0 <= j < |rows| ==> KeyOf(r[j]) == KeyOf(rows[j])
    ensures FirstWithKey(rows, key).Some? ==>
      r[FirstWithKey(rows, key).value] == ApplyPatch(rows[FirstWithKey(rows, key).value], p)
    ensures FirstWithKey(rows, key).None? ==> r[|rows|] == NewRow(key, p)
  {
    match FirstWithKey(rows, key)
    case Some(i) =>
      var r := rows[i := ApplyPatch(rows[i], p)];
      SameKeysSameFirst(rows, r, key);
      r
    case None =>
      var r := rows + [NewRow(key, p)];
      AppendNewFirst(rows, NewRow(key, p));
      r
  }

  function WriteKey(c: string, t: string, w: Write): Key {
    Key(c, t, w.number)
  }

  /** The loop over a page's entries, in order: the last entry is applied to the result of the others. */
  function UpsertAll(rows: seq<QuestionRow>, c: string, t: string, ws: seq<Write>): seq<QuestionRow>
    decreases |ws|
  {
    if |ws| == 0 then rows
    else Upsert(UpsertAll(rows, c, t, ws[..|ws| - 1]), WriteKey(c, t, ws[|ws| - 1]), ws[|ws| - 1].patch)
  }

  /** All entries of one page write the same kind of columns. */
  predicate Uniform(ws: seq<Write>) {
    forall i, j :: 0 <= i < |ws| && 0 <= j < |ws| ==> ws[i].patch.QuestionPatch? == ws[j].patch.QuestionPatch?
  }

  /** At most one row per key. */
  ghost predicate Unique(rows: seq<QuestionRow>) {
    forall i, j :: 0 <= i < j < |rows| ==> KeyOf(rows[i]) != KeyOf(rows[j])
  }

  lemma UpsertAllSnoc(rows: seq<QuestionRow>, c: string, t: string, ws: seq<Write>, w: Write)
    ensures UpsertAll(rows, c, t, ws + [w]) == Upsert(UpsertAll(rows, c, t, ws), WriteKey(c, t, w), w.patch)
  {
    assert (ws + [w])[..|ws|] == ws;
  }

  /** An upsert never moves the first row of a key that was already present. */
  lemma UpsertKeepsFirst(rows: seq<QuestionRow>, key: Key, p: Patch, other: Key)
    requires FirstWithKey(rows, other).Some?
    ensures FirstWithKey(Upsert(rows, key, p), other) == FirstWithKey(rows, other)
  {
    var r := Upsert(rows, key, p);
    if FirstWithKey(rows, key).Some? {
      assert SameKeys(rows, r);
      SameKeysSameFirst(rows, r, other);
    } else {
      assert r == rows + [NewRow(key, p)];
      AppendKeepsFirst(rows, NewRow(key, p), other);
    }
  }

  /** Every entry's key has a row in s. */
  ghost predicate KeysPresent(s: seq<QuestionRow>, c: string, t: string, ws: seq<Write>) {
    forall i :: 0 <= i < |ws| ==> FirstWithKey(s, WriteKey(c, t, ws[i])).Some?
  }

  /** Every row of s that some entry writes carries the last such entry's patch. */
  ghost predicate CarriesLastWrites(s: seq<QuestionRow>, c: string, t: string, ws: seq<Write>) {
    forall k :: 0 <= k < |s| && LastWriter(s, c, t, ws, k).Some? ==> Carries(s[k], LastWriter(s, c, t, ws, k).value)
  }

  /** The last entry of a non-empty page: the keys of the others stay present and its own key is added. */
  lemma PresentStep(s0: seq<QuestionRow>, c: string, t: string, ws: seq<Write>)
    requires |ws| > 0
    requires KeysPresent(s0, c, t, ws[..|ws| - 1])
    ensures KeysPresent(Upsert(s0, WriteKey(c, t, ws[|ws| - 1]), ws[|ws| - 1].patch), c, t, ws)
  {
    var w := ws[|ws| - 1];
    var s := Upsert(s0, WriteKey(c, t, w), w.patch);
    forall i | 0 <= i < |ws|
      ensures FirstWithKey(s, WriteKey(c, t, ws[i])).Some?
    {
      if i < |ws| - 1 {
        assert ws[..|ws| - 1][i] == ws[i];
        UpsertKeepsFirst(s0, WriteKey(c, t, w), w.patch, WriteKey(c, t, ws[i]));
      }
    }
  }

  /** Dropping the last entry keeps the others' keys present; the last key is present too. */
  lemma PresentPrefix(s: seq<QuestionRow>, c: string, t: string, ws: seq<Write>)
    requires |ws| > 0
    requires KeysPresent(s, c, t, ws)
    ensures KeysPresent(s, c, t, ws[..|ws| - 1])
    ensures FirstWithKey(s, WriteKey(c, t, ws[|ws| - 1])).Some?
  {
    var ws0 := ws[..|ws| - 1];
    assert forall i :: 0 <= i < |ws0| ==> ws0[i] == ws[i];
  }

  /** After a page is applied, every key it mentions has a row. */
  lemma {:induction false} AllPresent(rows: seq<QuestionRow>, c: string, t: string, ws: seq<Write>)
    ensures KeysPresent(UpsertAll(rows, c, t, ws), c, t, ws)
    decreases |ws|
  {
    if |ws| > 0 {
      AllPresent(rows, c, t, ws[..|ws| - 1]);
      PresentStep(UpsertAll(rows, c, t, ws[..|ws| - 1]), c, t, ws);
    }
  }

  /** The patch of the last entry whose key's first row, in `s`, is row k. */
  function LastWriter(s: seq<QuestionRow>, c: string, t: string, ws: seq<Write>, k: nat): Option<Patch>
    decreases |ws|
  {
    if |ws| == 0 then None
    else if FirstWithKey(s, WriteKey(c, t, ws[|ws| - 1])) == Some(k) then Some(ws[|ws| - 1].patch)
    else LastWriter(s, c, t, ws[..|ws| - 1], k)
  }

  /** LastWriter depends only on where the entries' keys first occur. */
  lemma {:induction false} LastWriterStable(a: seq<QuestionRow>, b: seq<QuestionRow>, c: string, t: string, ws: seq<Write>, k: nat)
    requires forall i :: 0 <= i < |ws| ==> FirstWithKey(a, WriteKey(c, t, ws[i])) == FirstWithKey(b, WriteKey(c, t, ws[i]))
    ensures LastWriter(a, c, t, ws, k) == LastWriter(b, c, t, ws, k)
    decreases |ws|
  {
    if |ws| > 0 {
      var ws0 := ws[..|ws| - 1];
      assert forall i :: 0 <= i < |ws0| ==> ws0[i] == ws[i];
      LastWriterStable(a, b, c, t, ws0, k);
    }
  }

  lemma LastWriterBound(s: seq<QuestionRow>, c: string, t: string, ws: seq<Write>, k: nat)
    requires LastWriter(s, c, t, ws, k).Some?
    ensures k < |s|
    decreases |ws|
  {
  }

  /** The last entry, seen at one row: the row it lands on carries it, every other row keeps its last writer. */
  lemma WinsAt(s0: seq<QuestionRow>, c: string, t: string, ws: seq<Write>, k: nat)
    requires |ws| > 0
    requires KeysPresent(s0, c, t, ws[..|ws| - 1])
    requires CarriesLastWrites(s0, c, t, ws[..|ws| - 1])
    requires k < |Upsert(s0, WriteKey(c, t, ws[|ws| - 1]), ws[|ws| - 1].patch)|
    requires LastWriter(Upsert(s0, WriteKey(c, t, ws[|ws| - 1]), ws[|ws| - 1].patch), c, t, ws, k).Some?
    ensures var s := Upsert(s0, WriteKey(c, t, ws[|ws| - 1]), ws[|ws| - 1].patch);
            Carries(s[k], LastWriter(s, c, t, ws, k).value)
  {
    var ws0 := ws[..|ws| - 1];
    var w := ws[|ws| - 1];
    var s := Upsert(s0, WriteKey(c, t, w), w.patch);
    if FirstWithKey(s, WriteKey(c, t, w)) != Some(k) {
      forall i | 0 <= i < |ws0|
        ensures FirstWithKey(s, WriteKey(c, t, ws0[i])) == FirstWithKey(s0, WriteKey(c, t, ws0[i]))
      {
        UpsertKeepsFirst(s0, WriteKey(c, t, w), w.patch, WriteKey(c, t, ws0[i]));
      }
      LastWriterStable(s, s0, c, t, ws0, k);
      LastWriterBound(s0, c, t, ws0, k);
    }
  }

  /** The last entry of a non-empty page keeps every touched row carrying its last writer. */
  lemma WinsStep(s0: seq<QuestionRow>, c: string, t: string, ws: seq<Write>)
    requires |ws| > 0
    requires KeysPresent(s0, c, t, ws[..|ws| - 1])
    requires CarriesLastWrites(s0, c, t, ws[..|ws| - 1])
    ensures CarriesLastWrites(Upsert(s0, WriteKey(c, t, ws[|ws| - 1]), ws[|ws| - 1].patch), c, t, ws)
  {
    var s := Upsert(s0, WriteKey(c, t, ws[|ws| - 1]), ws[|ws| - 1].patch);
    forall k | 0 <= k < |s| && LastWriter(s, c, t, ws, k).Some?
      ensures Carries(s[k], LastWriter(s, c, t, ws, k).value)
    {
      WinsAt(s0, c, t, ws, k);
    }
  }

  /** Last writer wins: each row a page touched holds the columns of the last entry aimed at it. */
  lemma {:induction false} LastWriterWins(rows: seq<QuestionRow>, c: string, t: string, ws: seq<Write>)
    ensures CarriesLastWrites(UpsertAll(rows, c, t, ws), c, t, ws)
    decreases |ws|
  {
    if |ws| > 0 {
      var ws0 := ws[..|ws| - 1];
      LastWriterWins(rows, c, t, ws0);
      AllPresent(rows, c, t, ws0);
      WinsStep(UpsertAll(rows, c, t, ws0), c, t, ws);
    }
  }

  /** What row k should hold after the entries are applied in place. */
  function Expected(s: seq<QuestionRow>, c: string, t: string, ws: seq<Write>, k: nat): QuestionRow
    requires k < |s|
  {
    match LastWriter(s, c, t, ws, k)
    case Some(p) => ApplyPatch(s[k], p)
    case None => s[k]
  }

  /** r is s with each row rewritten by its last writer among ws, and no row added. */
  ghost predicate InPlace(s: seq<QuestionRow>, c: string, t: string, ws: seq<Write>, r: seq<QuestionRow>) {
    |r| == |s| && forall k :: 0 <= k < |s| ==> r[k] == Expected(s, c, t, ws, k)
  }

  /** A later patch of the same kind overwrites everything an earlier one wrote. */
  lemma Absorb(row: QuestionRow, p0: Patch, p: Patch)
    requires p0.QuestionPatch? == p.QuestionPatch?
    ensures ApplyPatch(ApplyPatch(row, p0), p) == ApplyPatch(row, p)
  {
  }

  /** The last entry, whose key exists, seen at one row. */
  lemma InPlaceStep(s: seq<QuestionRow>, c: string, t: string, ws: seq<Write>, r0: seq<QuestionRow>, k: nat)
    requires |ws| > 0 && Uniform(ws)
    requires k < |s|
    requires InPlace(s, c, t, ws[..|ws| - 1], r0)
    requires FirstWithKey(s, WriteKey(c, t, ws[|ws| - 1])).Some?
    requires FirstWithKey(r0, WriteKey(c, t, ws[|ws| - 1])) == FirstWithKey(s, WriteKey(c, t, ws[|ws| - 1]))
    ensures Upsert(r0, WriteKey(c, t, ws[|ws| - 1]), ws[|ws| - 1].patch)[k] == Expected(s, c, t, ws, k)
  {
    var ws0 := ws[..|ws| - 1];
    var w := ws[|ws| - 1];
    assert r0[k] == Expected(s, c, t, ws0, k);
    if FirstWithKey(s, WriteKey(c, t, w)) == Some(k) {
      match LastWriter(s, c, t, ws0, k)
      case None =>
      case Some(p0) =>
        LastWriterFrom(s, c, t, ws0, k);
        var j :| 0 <= j < |ws0| && ws0[j].patch == p0;
        assert ws[j] == ws0[j];
        Absorb(s[k], p0, w.patch);
    }
  }

  /** The last entry, whose key exists, keeps the table an in-place rewrite of the original. */
  lemma InPlaceSnoc(s: seq<QuestionRow>, c: string, t: string, ws: seq<Write>, r0: seq<QuestionRow>)
    requires |ws| > 0 && Uniform(ws)
    requires FirstWithKey(s, WriteKey(c, t, ws[|ws| - 1])).Some?
    requires InPlace(s, c, t, ws[..|ws| - 1], r0)
    ensures InPlace(s, c, t, ws, Upsert(r0, WriteKey(c, t, ws[|ws| - 1]), ws[|ws| - 1].patch))
  {
    var key := WriteKey(c, t, ws[|ws| - 1]);
    assert SameKeys(s, r0) by {
      forall k | 0 <= k < |s| ensures KeyOf(r0[k]) == KeyOf(s[k]) {
        assert r0[k] == Expected(s, c, t, ws[..|ws| - 1], k);
      }
    }
    SameKeysSameFirst(s, r0, key);
    var r := Upsert(r0, key, ws[|ws| - 1].patch);
    forall k | 0 <= k < |s|
      ensures r[k] == Expected(s, c, t, ws, k)
    {
      InPlaceStep(s, c, t, ws, r0, k);
    }
  }

  /** Dropping the last entry keeps the page uniform. */
  lemma UniformPrefix(ws: seq<Write>)
    requires |ws| > 0 && Uniform(ws)
    ensures Uniform(ws[..|ws| - 1])
  {
    var ws0 := ws[..|ws| - 1];
    assert forall i :: 0 <= i < |ws0| ==> ws0[i] == ws[i];
  }

  /** Applying entries whose keys all exist only rewrites rows in place, each with its last writer's columns. */
  lemma {:induction false} UpdatesInPlace(s: seq<QuestionRow>, c: string, t: string, ws: seq<Write>)
    requires Uniform(ws)
    requires KeysPresent(s, c, t, ws)
    ensures InPlace(s, c, t, ws, UpsertAll(s, c, t, ws))
    decreases |ws|
  {
    if |ws| > 0 {
      UniformPrefix(ws);
      PresentPrefix(s, c, t, ws);
      UpdatesInPlace(s, c, t, ws[..|ws| - 1]);
      InPlaceSnoc(s, c, t, ws, UpsertAll(s, c, t, ws[..|ws| - 1]));
    }
  }

  /** The last writer is one of the entries. */
  lemma {:induction false} LastWriterFrom(s: seq<QuestionRow>, c: string, t: string, ws: seq<Write>, k: nat)
    requires LastWriter(s, c, t, ws, k).Some?
    ensures exists j :: 0 <= j < |ws| && ws[j].patch == LastWriter(s, c, t, ws, k).value
    decreases |ws|
  {
    if FirstWithKey(s, WriteKey(c, t, ws[|ws| - 1])) != Some(k) {
      var ws0 := ws[..|ws| - 1];
      LastWriterFrom(s, c, t, ws0, k);
      var j :| 0 <= j < |ws0| && ws0[j].patch == LastWriter(s, c, t, ws0, k).value;
      assert ws[j] == ws0[j];
    }
  }

  /** Reapplying the same page result changes nothing and adds no row. */
  lemma Idempotent(rows: seq<QuestionRow>, c: string, t: string, ws: seq<Write>)
    requires Uniform(ws)
    ensures UpsertAll(UpsertAll(rows, c, t, ws), c, t, ws) == UpsertAll(rows, c, t, ws)
  {
    AllPresent(rows, c, t, ws);
    LastWriterWins(rows, c, t, ws);
    CarriedIsFixed(UpsertAll(rows, c, t, ws), c, t, ws);
  }

  /** A table that already carries every entry's last write is left as it is. */
  lemma CarriedIsFixed(s: seq<QuestionRow>, c: string, t: string, ws: seq<Write>)
    requires Uniform(ws)
    requires KeysPresent(s, c, t, ws)
    requires CarriesLastWrites(s, c, t, ws)
    ensures UpsertAll(s, c, t, ws) == s
  {
    UpdatesInPlace(s, c, t, ws);
    var r := UpsertAll(s, c, t, ws);
    forall k | 0 <= k < |s|
      ensures r[k] == s[k]
    {
      ExpectedIsStable(s, c, t, ws, k);
    }
  }

  lemma ExpectedIsStable(s: seq<QuestionRow>, c: string, t: string, ws: seq<Write>, k: nat)
    requires k < |s|
    requires LastWriter(s, c, t, ws, k).Some? ==> Carries(s[k], LastWriter(s, c, t, ws, k).value)
    ensures Expected(s, c, t, ws, k) == s[k]
  {
  }

  /** One upsert keeps one row per key. */
  lemma UpsertKeepsUnique(rows: seq<QuestionRow>, key: Key, p: Patch)
    requires Unique(rows)
    ensures Unique(Upsert(rows, key, p))
  {
    if FirstWithKey(rows, key).None? {
      assert Upsert(rows, key, p) == rows + [NewRow(key, p)];
      assert forall j :: 0 <= j < |rows| ==> KeyOf(rows[j]) != key;
    }
  }

  /** A table with one row per key keeps one row per key. */
  lemma {:induction false} UpsertAllKeepsUnique(rows: seq<QuestionRow>, c: string, t: string, ws: seq<Write>)
    requires Unique(rows)
    ensures Unique(UpsertAll(rows, c, t, ws))
    decreases |ws|
  {
    if |ws| > 0 {
      var ws0 := ws[..|ws| - 1];
      UpsertAllKeepsUnique(rows, c, t, ws0);
      UpsertKeepsUnique(UpsertAll(rows, c, t, ws0), WriteKey(c, t, ws[|ws| - 1]), ws[|ws| - 1].patch);
    }
  }

  /**
   * Content columns add up: a question page then an answer page for the same
   * key leave a row holding both, at most one row more than before.
   */
  lemma QuestionThenAnswer(rows: seq<QuestionRow>, key: Key, q: Patch, a: Patch)
    requires q.QuestionPatch? && a.AnswerPatch?
    ensures var r := Upsert(Upsert(rows, key, q), key, a);
            && |r| <= |rows| + 1
            && FirstWithKey(r, key).Some?
            && Carries(r[FirstWithKey(r, key).value], q)
            && Carries(r[FirstWithKey(r, key).value], a)
  {
    var r1 := Upsert(rows, key, q);
    var r := Upsert(r1, key, a);
    var i := FirstWithKey(r1, key).value;
    assert FirstWithKey(r, key) == Some(i);
  }
}

=== FILE: selections.dfy ===
/**
 * Manual selection ingestion, POST /api/v1/selections
 * (src/routes/api/v1/selections/+server.ts): a batch of rectangles drawn on
 * an upload's pages, each marked as a question or an answer with its question
 * number and 1-based page number. A first pass creates one question row per
 * question number; a second pass creates one answer row per answer selection,
 * linked to this request's question row for the number, or else to the first
 * existing row for (competition, test, number).
 */
module Selections {
  import opened Wrappers
  import opened Store

  datatype Selection = Selection(kind: string, questionNumber: int, pageNumber: int, region: Region)

  /** The request body; an absent or null field is None. */
  datatype Body = Body(uploadId: Option<string>, test: Option<string>, selections: Option<seq<Selection>>)

  datatype Tables = Tables(
    uploads: seq<Upload>, competitions: seq<CompetitionRow>,
    questions: seq<QuestionRow>, answers: seq<AnswerRow>)

  /** The HTTP status and the tables as the request leaves them. */
  datatype Response = Response(status: nat, tables: Tables)

  predicate Truthy(s: Option<string>) {
    s.Some? && s.value != ""
  }

  predicate IsQuestion(s: Selection) {
    s.kind == "question"
  }

  predicate IsAnswer(s: Selection) {
    s.kind == "answer"
  }

  /** upload.pages[pageNumber - 1]: the page for a 1-based page number, None (undefined) out of range. */
  function PageAt(pages: seq<string>, pageNumber: int): (r: Option<string>)
    ensures r.Some? <==> 1 <= pageNumber <= |pages|
    ensures r.Some? ==> r.value == pages[pageNumber - 1]
  {
    if 1 <= pageNumber <= |pages| then Some(pages[pageNumber - 1]) else None
  }

  /** getRow(uploads, id). */
  function FindUpload(uploads: seq<Upload>, id: string): Option<nat> {
    FirstIndex(uploads, (u: Upload) => u.id == id)
  }

  /** getRow(competitions, id). */
  function FindCompetition(competitions: seq<CompetitionRow>, id: string): Option<nat> {
    FirstIndex(competitions, (c: CompetitionRow) => c.id == id)
  }

  function QuestionRowFor(competitionId: string, test: string, pages: seq<string>, s: Selection): QuestionRow {
    QuestionRow(competitionId, test, s.questionNumber, None, None, None, None, None, PageAt(pages, s.pageNumber), Some(s.region))
  }

  function QuestionRows(competitionId: string, test: string, pages: seq<string>, ss: seq<Selection>): (rows: seq<QuestionRow>)
    ensures |rows| == |ss|
    ensures forall k :: 0 <= k < |ss| ==> rows[k] == QuestionRowFor(competitionId, test, pages, ss[k])
  {
    seq(|ss|, k requires 0 <= k < |ss| => QuestionRowFor(competitionId, test, pages, ss[k]))
  }

  /** Selection i is a question selection whose number no earlier question selection has. */
  predicate IsFirstQuestion(sels: seq<Selection>, i: nat)
    requires i < |sels|
  {
    IsQuestion(sels[i]) &&
    forall j :: 0 <= j < i ==> !(IsQuestion(sels[j]) && sels[j].questionNumber == sels[i].questionNumber)
  }

  /** The first occurrence of each question number among the first n selections, in order. */
  function FirstOccurrences(sels: seq<Selection>, n: nat): seq<Selection>
    requires n <= |sels|
    decreases n
  {
    if n == 0 then []
    else FirstOccurrences(sels, n - 1) + (if IsFirstQuestion(sels, n - 1) then [sels[n - 1]] else [])
  }

  /** The question numbers of the question selections among the first n. */
  function QuestionNumbers(sels: seq<Selection>, n: nat): set<int>
    requires n <= |sels|
  {
    set j | 0 <= j < n && IsQuestion(sels[j]) :: sels[j].questionNumber
  }

  datatype QuestionPassState = QuestionPassState(rows: seq<QuestionRow>, created: map<int, nat>)

  /** Each number in `created` points at a row, appended after the first `base` rows, with that number's key. */
  ghost predicate CreatedRows(p: QuestionPassState, base: nat, competitionId: string, test: string) {
    forall num :: num in p.created ==>
      base <= p.created[num] < |p.rows| && KeyOf(p.rows[p.created[num]]) == Key(competitionId, test, num)
  }

  /** The first loop after its first n iterations: `created` maps each question number to the row it created. */
  function QuestionPass(rows0: seq<QuestionRow>, competitionId: string, test: string, pages: seq<string>,
                        sels: seq<Selection>, n: nat): (p: QuestionPassState)
    requires n <= |sels|
    ensures p.created.Keys == QuestionNumbers(sels, n)
    ensures p.rows == rows0 + QuestionRows(competitionId, test, pages, FirstOccurrences(sels, n))
    ensures CreatedRows(p, |rows0|, competitionId, test)
    decreases n
  {
    if n == 0 then QuestionPassState(rows0, map[])
    else
      var prev := QuestionPass(rows0, competitionId, test, pages, sels, n - 1);
      var s := sels[n - 1];
      QuestionNumbersStep(sels, n);
      FirstQuestionIff(sels, n, prev.created);
      if IsQuestion(s) && s.questionNumber !in prev.created then
        var row := QuestionRowFor(competitionId, test, pages, s);
        QuestionRowsSnoc(competitionId, test, pages, FirstOccurrences(sels, n - 1), s);
        QuestionPassState(prev.rows + [row], prev.created[s.questionNumber := |prev.rows|])
      else
        prev
  }

  lemma QuestionNumbersStep(sels: seq<Selection>, n: nat)
    requires 0 < n <= |sels|
    ensures QuestionNumbers(sels, n) ==
      QuestionNumbers(sels, n - 1) + (if IsQuestion(sels[n - 1]) then {sels[n - 1].questionNumber} else {})
  {
  }

  /** With the numbers seen so far as `created`'s keys, selection n - 1 is a first occurrence exactly when its number is new. */
  lemma FirstQuestionIff(sels: seq<Selection>, n: nat, created: map<int, nat>)
    requires 0 < n <= |sels|
    requires created.Keys == QuestionNumbers(sels, n - 1)
    ensures IsFirstQuestion(sels, n - 1) <==> IsQuestion(sels[n - 1]) && sels[n - 1].questionNumber !in created
  {
    var s := sels[n - 1];
    if IsQuestion(s) && s.questionNumber in created {
      var j :| 0 <= j < n - 1 && IsQuestion(sels[j]) && sels[j].questionNumber == s.questionNumber;
    }
  }

  lemma QuestionRowsSnoc(competitionId: string, test: string, pages: seq<string>, ss: seq<Selection>, s: Selection)
    ensures QuestionRows(competitionId, test, pages, ss + [s]) ==
      QuestionRows(competitionId, test, pages, ss) + [QuestionRowFor(competitionId, test, pages, s)]
  {
  }

  /** The question numbers of a list of selections. */
  function NumbersIn(f: seq<Selection>): set<int> {
    set k | 0 <= k < |f| :: f[k].questionNumber
  }

  /** No question number appears twice. */
  ghost predicate DistinctNumbers(f: seq<Selection>) {
    forall a, b :: 0 <= a < b < |f| ==> f[a].questionNumber != f[b].questionNumber
  }

  /** The first occurrences are question selections of the batch and cover exactly its question numbers. */
  lemma {:induction false} FirstOccurrencesCover(sels: seq<Selection>, n: nat)
    requires n <= |sels|
    ensures NumbersIn(FirstOccurrences(sels, n)) == QuestionNumbers(sels, n)
    ensures forall k :: 0 <= k < |FirstOccurrences(sels, n)| ==>
      IsQuestion(FirstOccurrences(sels, n)[k]) && FirstOccurrences(sels, n)[k] in sels
    decreases n
  {
    if n > 0 {
      FirstOccurrencesCover(sels, n - 1);
      var f0 := FirstOccurrences(sels, n - 1);
      var f := FirstOccurrences(sels, n);
      var s := sels[n - 1];
      assert QuestionNumbers(sels, n) ==
        QuestionNumbers(sels, n - 1) + (if IsQuestion(s) then {s.questionNumber} else {});
      if IsFirstQuestion(sels, n - 1) {
        assert f == f0 + [s];
        assert NumbersIn(f) == NumbersIn(f0) + {s.questionNumber} by {
          assert forall k :: 0 <= k < |f0| ==> f[k] == f0[k];
          assert f[|f0|] == s;
        }
        forall k | 0 <= k < |f| ensures IsQuestion(f[k]) && f[k] in sels {
          if k < |f0| {
            assert f[k] == f0[k];
          }
        }
      } else {
        assert f == f0;
        if IsQuestion(s) {
          var j :| 0 <= j < n - 1 && IsQuestion(sels[j]) && sels[j].questionNumber == s.questionNumber;
          assert s.questionNumber in QuestionNumbers(sels, n - 1);
        }
      }
    }
  }

  /** The first occurrences carry each question number at most once. */
  lemma {:induction false} FirstOccurrencesDistinct(sels: seq<Selection>, n: nat)
    requires n <= |sels|
    ensures DistinctNumbers(FirstOccurrences(sels, n))
    decreases n
  {
    if n > 0 {
      FirstOccurrencesDistinct(sels, n - 1);
      FirstOccurrencesCover(sels, n - 1);
      var f0 := FirstOccurrences(sels, n - 1);
      var f := FirstOccurrences(sels, n);
      var s := sels[n - 1];
      if IsFirstQuestion(sels, n - 1) {
        assert f == f0 + [s];
        assert s.questionNumber !in QuestionNumbers(sels, n - 1);
        forall a, b | 0 <= a < b < |f| ensures f[a].questionNumber != f[b].questionNumber {
          assert f[a] == f0[a];
          if b < |f0| {
            assert f[b] == f0[b];
          } else {
            assert f0[a].questionNumber in NumbersIn(f0);
          }
        }
      }
    }
  }

  /** Where an answer selection's question row is: this request's row for the number, else the first existing one. */
  function Resolve(p: QuestionPassState, competitionId: string, test: string, num: int): Option<nat> {
    if num in p.created then Some(p.created[num]) else FirstWithKey(p.rows, Key(competitionId, test, num))
  }

  /** The answer selections among the first n, in order. */
  function AnswerSelections(sels: seq<Selection>, n: nat): (a: seq<Selection>)
    requires n <= |sels|
    ensures |a| <= n
    ensures forall k :: 0 <= k < |a| ==> IsAnswer(a[k]) && a[k] in sels[..n]
    decreases n
  {
    if n == 0 then []
    else AnswerSelections(sels, n - 1) + (if IsAnswer(sels[n - 1]) then [sels[n - 1]] else [])
  }

  datatype AnswerPassState = AnswerPassState(answers: seq<AnswerRow>, failed: bool)

  /** The second loop after its first n iterations; `failed` is the 404 that ends it. */
  function AnswerPass(answers0: seq<AnswerRow>, p: QuestionPassState, competitionId: string, test: string,
                      pages: seq<string>, sels: seq<Selection>, n: nat): (a: AnswerPassState)
    requires n <= |sels|
    ensures !a.failed <==> forall j :: 0 <= j < n && IsAnswer(sels[j]) ==> Resolve(p, competitionId, test, sels[j].questionNumber).Some?
    ensures |answers0| <= |a.answers| <= |answers0| + |AnswerSelections(sels, n)|
    ensures a.answers[..|answers0|] == answers0
    ensures !a.failed ==>
      var asel := AnswerSelections(sels, n);
      && |a.answers| == |answers0| + |asel|
      && forall k :: 0 <= k < |asel| ==>
           Resolve(p, competitionId, test, asel[k].questionNumber).Some? &&
           a.answers[|answers0| + k] == AnswerRow(competitionId, Resolve(p, competitionId, test, asel[k].questionNumber).value,
                                                   PageAt(pages, asel[k].pageNumber), asel[k].region)
    decreases n
  {
    if n == 0 then AnswerPassState(answers0, false)
    else
      var prev := AnswerPass(answers0, p, competitionId, test, pages, sels, n - 1);
      var s := sels[n - 1];
      if prev.failed || !IsAnswer(s) then prev
      else match Resolve(p, competitionId, test, s.questionNumber)
        case None => AnswerPassState(prev.answers, true)
        case Some(qid) =>
          var asel := AnswerSelections(sels, n);
          assert asel == AnswerSelections(sels, n - 1) + [s];
          AnswerPassState(prev.answers + [AnswerRow(competitionId, qid, PageAt(pages, s.pageNumber), s.region)], false)
  }

  /**
   * The second loop stops at the first answer selection whose number resolves
   * to no row: the 404 keeps exactly the answer rows written before it.
   */
  lemma AnswerPassStopsAtFirstMiss(answers0: seq<AnswerRow>, p: QuestionPassState, competitionId: string,
                                                      test: string, pages: seq<string>, sels: seq<Selection>, m: nat, n: nat)
    requires m < n <= |sels|
    requires IsAnswer(sels[m]) && Resolve(p, competitionId, test, sels[m].questionNumber).None?
    requires forall j :: 0 <= j < m && IsAnswer(sels[j]) ==> Resolve(p, competitionId, test, sels[j].questionNumber).Some?
    ensures !AnswerPass(answers0, p, competitionId, test, pages, sels, m).failed
    ensures AnswerPass(answers0, p, competitionId, test, pages, sels, n)
         == AnswerPassState(AnswerPass(answers0, p, competitionId, test, pages, sels, m).answers, true)
  {
    AnswerPassBeforeMiss(answers0, p, competitionId, test, pages, sels, m);
    AnswerPassMissStep(answers0, p, competitionId, test, pages, sels, m);
    AnswerPassFailedStays(answers0, p, competitionId, test, pages, sels, m + 1, n);
  }

  /** With every answer before m resolving, the loop has not failed after m iterations. */
  lemma AnswerPassBeforeMiss(answers0: seq<AnswerRow>, p: QuestionPassState, competitionId: string,
                             test: string, pages: seq<string>, sels: seq<Selection>, m: nat)
    requires m <= |sels|
    requires forall j :: 0 <= j < m && IsAnswer(sels[j]) ==> Resolve(p, competitionId, test, sels[j].questionNumber).Some?
    ensures !AnswerPass(answers0, p, competitionId, test, pages, sels, m).failed
  {
  }

  /** The iteration on an unresolved answer fails and writes nothing. */
  lemma AnswerPassMissStep(answers0: seq<AnswerRow>, p: QuestionPassState, competitionId: string,
                           test: string, pages: seq<string>, sels: seq<Selection>, m: nat)
    requires m < |sels|
    requires IsAnswer(sels[m]) && Resolve(p, competitionId, test, sels[m].questionNumber).None?
    requires !AnswerPass(answers0, p, competitionId, test, pages, sels, m).failed
    ensures AnswerPass(answers0, p, competitionId, test, pages, sels, m + 1)
         == AnswerPassState(AnswerPass(answers0, p, competitionId, test, pages, sels, m).answers, true)
  {
  }

  /** Once failed, the loop stays as it is. */
  lemma AnswerPassFailedStays(answers0: seq<AnswerRow>, p: QuestionPassState, competitionId: string,
                                                 test: string, pages: seq<string>, sels: seq<Selection>, k: nat, n: nat)
    requires k <= n <= |sels|
    requires AnswerPass(answers0, p, competitionId, test, pages, sels, k).failed
    ensures AnswerPass(answers0, p, competitionId, test, pages, sels, n)
         == AnswerPass(answers0, p, competitionId, test, pages, sels, k)
  {
    var start := AnswerPass(answers0, p, competitionId, test, pages, sels, k);
    var i := k;
    while i < n
      invariant k <= i <= n
      invariant AnswerPass(answers0, p, competitionId, test, pages, sels, i) == start
    {
      AnswerPassFailedStep(answers0, p, competitionId, test, pages, sels, i + 1);
      i := i + 1;
    }
  }

  /** A failed loop's next iteration changes nothing. */
  lemma AnswerPassFailedStep(answers0: seq<AnswerRow>, p: QuestionPassState, competitionId: string,
                             test: string, pages: seq<string>, sels: seq<Selection>, n: nat)
    requires 0 < n <= |sels|
    requires AnswerPass(answers0, p, competitionId, test, pages, sels, n - 1).failed
    ensures AnswerPass(answers0, p, competitionId, test, pages, sels, n)
         == AnswerPass(answers0, p, competitionId, test, pages, sels, n - 1)
  {
  }

  /** POST /api/v1/selections. */
  function Post(body: Body, t: Tables): (r: Response)
    ensures !Truthy(body.uploadId) || !Truthy(body.test) || body.selections.None? ==> r == Response(400, t)
    ensures (Truthy(body.uploadId) && Truthy(body.test) && body.selections.Some? &&
             FindUpload(t.uploads, body.uploadId.value).None?) ==> r == Response(404, t)
    ensures (Truthy(body.uploadId) && Truthy(body.test) && body.selections.Some? &&
             FindUpload(t.uploads, body.uploadId.value).Some? &&
             |t.uploads[FindUpload(t.uploads, body.uploadId.value).value].pages| == 0) ==> r == Response(400, t)
    ensures (Truthy(body.uploadId) && Truthy(body.test) && body.selections.Some? &&
             FindUpload(t.uploads, body.uploadId.value).Some? &&
             |t.uploads[FindUpload(t.uploads, body.uploadId.value).value].pages| > 0 &&
             FindCompetition(t.competitions, t.uploads[FindUpload(t.uploads, body.uploadId.value).value].competitionId).None?) ==>
            r == Response(404, t)
    ensures (Truthy(body.uploadId) && Truthy(body.test) && body.selections.Some? &&
             FindUpload(t.uploads, body.uploadId.value).Some? &&
             |t.uploads[FindUpload(t.uploads, body.uploadId.value).value].pages| > 0 &&
             FindCompetition(t.competitions, t.uploads[FindUpload(t.uploads, body.uploadId.value).value].competitionId).Some?) ==>
            var upload := t.uploads[FindUpload(t.uploads, body.uploadId.value).value];
            var cid := t.competitions[FindCompetition(t.competitions, upload.competitionId).value].id;
            var sels := body.selections.value;
            var p := QuestionPass(t.questions, cid, body.test.value, upload.pages, sels, |sels|);
            && r.tables.questions == p.rows
            && r.tables.answers == AnswerPass(t.answers, p, cid, body.test.value, upload.pages, sels, |sels|).answers
            && (r.status == 200 <==>
                  forall j :: 0 <= j < |sels| && IsAnswer(sels[j]) ==> Resolve(p, cid, body.test.value, sels[j].questionNumber).Some?)
    ensures r.status in {200, 400, 404}
    ensures r.tables.uploads == t.uploads && r.tables.competitions == t.competitions
    ensures |r.tables.questions| >= |t.questions| && r.tables.questions[..|t.questions|] == t.questions
    ensures |r.tables.answers| >= |t.answers| && r.tables.answers[..|t.answers|] == t.answers
  {
    if !Truthy(body.uploadId) || !Truthy(body.test) || body.selections.None? then Response(400, t)
    else match FindUpload(t.uploads, body.uploadId.value)
      case None => Response(404, t)
      case Some(u) =>
        var upload := t.uploads[u];
        if |upload.pages| == 0 then Response(400, t)
        else match FindCompetition(t.competitions, upload.competitionId)
          case None => Response(404, t)
          case Some(ci) =>
            var competitionId := t.competitions[ci].id;
            var test := body.test.value;
            var sels := body.selections.value;
            var p := QuestionPass(t.questions, competitionId, test, upload.pages, sels, |sels|);
            var a := AnswerPass(t.answers, p, competitionId, test, upload.pages, sels, |sels|);
            Response(if a.failed then 404 else 200, t.(questions := p.rows, answers := a.answers))
  }

  /**
   * A successful request adds exactly one question row per distinct question
   * number, in first-occurrence order, each on the 1-based page it names, and
   * one answer row per answer selection.
   */
  lemma PostCreatesRows(body: Body, t: Tables)
    requires Truthy(body.uploadId) && Truthy(body.test) && body.selections.Some?
    requires Post(body, t).status == 200
    ensures FindUpload(t.uploads, body.uploadId.value).Some?
    ensures var upload := t.uploads[FindUpload(t.uploads, body.uploadId.value).value];
            FindCompetition(t.competitions, upload.competitionId).Some?
    ensures var upload := t.uploads[FindUpload(t.uploads, body.uploadId.value).value];
            var ci := FindCompetition(t.competitions, upload.competitionId).value;
            var sels := body.selections.value;
            var r := Post(body, t).tables;
            var f := FirstOccurrences(sels, |sels|);
            && |upload.pages| > 0
            && r.questions == t.questions + QuestionRows(t.competitions[ci].id, body.test.value, upload.pages, f)
            && DistinctNumbers(f)
            && NumbersIn(f) == QuestionNumbers(sels, |sels|)
            && |r.answers| == |t.answers| + |AnswerSelections(sels, |sels|)|
  {
    var sels := body.selections.value;
    var upload := t.uploads[FindUpload(t.uploads, body.uploadId.value).value];
    var ci := FindCompetition(t.competitions, upload.competitionId).value;
    var competitionId := t.competitions[ci].id;
    var p := QuestionPass(t.questions, competitionId, body.test.value, upload.pages, sels, |sels|);
    var a := AnswerPass(t.answers, p, competitionId, body.test.value, upload.pages, sels, |sels|);
    assert Post(body, t) == Response(if a.failed then 404 else 200, t.(questions := p.rows, answers := a.answers));
    FirstOccurrencesCover(sels, |sels|);
    FirstOccurrencesDistinct(sels, |sels|);
  }

  /**
   * On a successful request the answer rows follow the answer selections in
   * order, each on its 1-based page and region, for the upload's competition,
   * and linked to a question row with the request's test and the selection's
   * question number.
   */
  lemma PostAnswerRows(body: Body, t: Tables)
    requires Truthy(body.uploadId) && Truthy(body.test) && body.selections.Some?
    requires Post(body, t).status == 200
    ensures FindUpload(t.uploads, body.uploadId.value).Some?
    ensures var upload := t.uploads[FindUpload(t.uploads, body.uploadId.value).value];
            FindCompetition(t.competitions, upload.competitionId).Some?
    ensures var upload := t.uploads[FindUpload(t.uploads, body.uploadId.value).value];
            var cid := t.competitions[FindCompetition(t.competitions, upload.competitionId).value].id;
            var asel := AnswerSelections(body.selections.value, |body.selections.value|);
            var r := Post(body, t).tables;
            && |r.answers| == |t.answers| + |asel|
            && forall k :: 0 <= k < |asel| ==> LinkedAnswer(r.questions, r.answers, |t.answers| + k, cid, body.test.value, upload.pages, asel[k])
  {
    var sels := body.selections.value;
    var upload := t.uploads[FindUpload(t.uploads, body.uploadId.value).value];
    var ci := FindCompetition(t.competitions, upload.competitionId).value;
    var cid := t.competitions[ci].id;
    var p := QuestionPass(t.questions, cid, body.test.value, upload.pages, sels, |sels|);
    var a := AnswerPass(t.answers, p, cid, body.test.value, upload.pages, sels, |sels|);
    var r := t.(questions := p.rows, answers := a.answers);
    assert Post(body, t) == Response(200, r);
    var asel := AnswerSelections(sels, |sels|);
    forall k | 0 <= k < |asel|
      ensures LinkedAnswer(r.questions, r.answers, |t.answers| + k, cid, body.test.value, upload.pages, asel[k])
    {
      AnswerRowLinked(t.answers, p, cid, body.test.value, upload.pages, sels, k);
    }
  }

  /** Answer row i is selection s's row, linked to a question row with s's key. */
  ghost predicate LinkedAnswer(questions: seq<QuestionRow>, answers: seq<AnswerRow>, i: nat,
                               competitionId: string, test: string, pages: seq<string>, s: Selection) {
    && i < |answers|
    && answers[i].competitionId == competitionId
    && answers[i].pageId == PageAt(pages, s.pageNumber)
    && answers[i].region == s.region
    && answers[i].questionId < |questions|
    && KeyOf(questions[answers[i].questionId]) == Key(competitionId, test, s.questionNumber)
  }

  /** One answer row of a completed second pass, against the first pass's table. */
  lemma AnswerRowLinked(answers0: seq<AnswerRow>, p: QuestionPassState, competitionId: string, test: string,
                        pages: seq<string>, sels: seq<Selection>, k: nat)
    requires CreatedRows(p, 0, competitionId, test)
    requires !AnswerPass(answers0, p, competitionId, test, pages, sels, |sels|).failed
    requires k < |AnswerSelections(sels, |sels|)|
    ensures LinkedAnswer(p.rows, AnswerPass(answers0, p, competitionId, test, pages, sels, |sels|).answers,
                         |answers0| + k, competitionId, test, pages, AnswerSelections(sels, |sels|)[k])
  {
    var s := AnswerSelections(sels, |sels|)[k];
    ResolveKey(p, 0, competitionId, test, s.questionNumber);
  }

  /** A resolved question number names a row of the table with that competition, test and number. */
  lemma ResolveKey(p: QuestionPassState, base: nat, competitionId: string, test: string, num: int)
    requires CreatedRows(p, base, competitionId, test)
    requires Resolve(p, competitionId, test, num).Some?
    ensures Resolve(p, competitionId, test, num).value < |p.rows|
    ensures KeyOf(p.rows[Resolve(p, competitionId, test, num).value]) == Key(competitionId, test, num)
  {
  }

  /**
   * Question rows are all created before any answer: an answer whose number has
   * a question selection anywhere in the batch, even later, links to the row
   * this request created for that number.
   */
  lemma AnswerLinksToBatchQuestion(rows0: seq<QuestionRow>, competitionId: string, test: string,
                                   pages: seq<string>, sels: seq<Selection>, j: nat, q: nat)
    requires j < |sels| && q < |sels|
    requires IsAnswer(sels[j]) && IsQuestion(sels[q]) && sels[q].questionNumber == sels[j].questionNumber
    ensures var p := QuestionPass(rows0, competitionId, test, pages, sels, |sels|);
            var id := Resolve(p, competitionId, test, sels[j].questionNumber);
            && id.Some? && |rows0| <= id.value < |p.rows|
            && KeyOf(p.rows[id.value]) == Key(competitionId, test, sels[j].questionNumber)
  {
    assert sels[q].questionNumber in QuestionNumbers(sels, |sels|);
  }
}

=== FILE: store.dfy ===
/**
 * The row store the server code talks to (src/lib/server/database.ts), reduced
 * to what the modelled logic observes: a table is a sequence of rows in the
 * store's default order, a row id is the row's position, `createRow` appends,
 * `updateRow` replaces the row at a position, `getFirstRow` answers the first
 * row matching its filters, and `listRows` answers every matching row in order.
 */
module Store {
  import opened Wrappers
  import Competition

  /** getFirstRow: the position of the first element satisfying `p`, or None ("No rows found"). */
  function FirstIndex<T>(s: seq<T>, p: T -> bool): (r: Option<nat>)
    ensures r.Some? ==> r.value < |s| && p(s[r.value])
    ensures r.Some? ==> forall j :: 0 <= j < r.value ==> !p(s[j])
    ensures r.None? <==> forall j :: 0 <= j < |s| ==> !p(s[j])
    decreases |s|
  {
    if |s| == 0 then None
    else if p(s[0]) then Some(0)
    else match FirstIndex(s[1..], p)
      case None => None
      case Some(k) => Some(k + 1)
  }

  /** listRows with equality filters: the matching rows, in table order. */
  function Filter<T>(s: seq<T>, p: T -> bool): (r: seq<T>)
    ensures |r| <= |s|
    ensures forall i :: 0 <= i < |r| ==> p(r[i]) && r[i] in s
    ensures forall x :: x in s && p(x) ==> x in r
    decreases |s|
  {
    if |s| == 0 then []
    else if p(s[0]) then [s[0]] + Filter(s[1..], p)
    else Filter(s[1..], p)
  }

  /** Each matching row appears in the result as often as in the table, and nothing else appears. */
  lemma {:induction false} FilterCounts<T>(s: seq<T>, p: T -> bool)
    ensures multiset(Filter(s, p)) <= multiset(s)
    ensures forall x :: x in s && p(x) ==> multiset(Filter(s, p))[x] == multiset(s)[x]
    decreases |s|
  {
    if |s| > 0 {
      FilterCounts(s[1..], p);
      assert s == [s[0]] + s[1..];
      assert multiset(s) == multiset{s[0]} + multiset(s[1..]);
    }
  }

  /** Filtering keeps table order: the matches of a concatenation are the matches of each part, in turn. */
  lemma {:induction false} FilterAppend<T>(a: seq<T>, b: seq<T>, p: T -> bool)
    ensures Filter(a + b, p) == Filter(a, p) + Filter(b, p)
    decreases |a|
  {
    if |a| == 0 {
      assert a + b == b;
    } else {
      var ab := a + b;
      assert ab[0] == a[0] && ab[1..] == a[1..] + b;
      FilterAppend(a[1..], b, p);
      if p(a[0]) {
        calc {
          Filter(ab, p);
          [a[0]] + Filter(a[1..] + b, p);
          [a[0]] + (Filter(a[1..], p) + Filter(b, p));
          { ConcatAssoc([a[0]], Filter(a[1..], p), Filter(b, p)); }
          ([a[0]] + Filter(a[1..], p)) + Filter(b, p);
        }
      }
    }
  }

  lemma ConcatAssoc<T>(x: seq<T>, y: seq<T>, z: seq<T>)
    ensures x + (y + z) == (x + y) + z
  {
  }

  datatype UploadState = Processing | Processed

  /** A row of the uploads table: one submitted packet and its processing cursor. */
  datatype Upload = Upload(id: string, competitionId: string, pages: seq<string>, nextPage: nat, state: UploadState)

  /** A row of the competitions table. */
  datatype CompetitionRow = CompetitionRow(
    id: string, active: bool, year: int,
    division: Competition.Division, location: Competition.Location)

  /** The natural key of a question row: (competitionId, test, questionNumber). */
  datatype Key = Key(competitionId: string, test: string, number: int)

  /** A crop rectangle on a page image. */
  datatype Region = Region(x: int, y: int, width: int, height: int)

  /**
   * A row of the questions table. The page-processing path writes the content
   * columns; the manual-selection path writes `pageId` and `region`. A column
   * never written is None.
   */
  datatype QuestionRow = QuestionRow(
    competitionId: string, test: string, questionNumber: int,
    questionContent: Option<string>, questionPageId: Option<string>, includesDiagram: Option<bool>,
    answerContent: Option<string>, answerPageId: Option<string>,
    pageId: Option<string>, region: Option<Region>)

  /** A row of the answers table, linked to its question row by position. */
  datatype AnswerRow = AnswerRow(competitionId: string, questionId: nat, pageId: Option<string>, region: Region)

  function KeyOf(row: QuestionRow): Key {
    Key(row.competitionId, row.test, row.questionNumber)
  }

  /** getFirstRow(questions, [competitionId = .., test = .., questionNumber = ..]). */
  function FirstWithKey(rows: seq<QuestionRow>, key: Key): Option<nat> {
    FirstIndex(rows, (r: QuestionRow) => KeyOf(r) == key)
  }

  /** Tables whose rows carry the same keys, position by position. */
  ghost predicate SameKeys(a: seq<QuestionRow>, b: seq<QuestionRow>) {
    |a| == |b| && forall i :: 0 <= i < |a| ==> KeyOf(a[i]) == KeyOf(b[i])
  }

  /** The key lookup sees only the keys: rewriting non-key columns never moves a first match. */
  lemma SameKeysSameFirst(a: seq<QuestionRow>, b: seq<QuestionRow>, key: Key)
    requires SameKeys(a, b)
    ensures FirstWithKey(a, key) == FirstWithKey(b, key)
  {
  }

  /** Appending a row keeps the first match of every key already present. */
  lemma AppendKeepsFirst(rows: seq<QuestionRow>, extra: QuestionRow, key: Key)
    requires FirstWithKey(rows, key).Some?
    ensures FirstWithKey(rows + [extra], key) == FirstWithKey(rows, key)
  {
    var i := FirstWithKey(rows, key).value;
    var s := rows + [extra];
    assert KeyOf(s[i]) == key;
    assert forall j :: 0 <= j < |rows| ==> s[j] == rows[j];
  }

  /** Appending a row with a new key makes that row the key's first match. */
  lemma AppendNewFirst(rows: seq<QuestionRow>, extra: QuestionRow)
    requires FirstWithKey(rows, KeyOf(extra)).None?
    ensures FirstWithKey(rows + [extra], KeyOf(extra)) == Some(|rows|)
  {
    var s := rows + [extra];
    assert KeyOf(s[|rows|]) == KeyOf(extra);
    assert forall j :: 0 <= j < |rows| ==> s[j] == rows[j];
  }
}

=== FILE: text.dfy ===
/**
 * Decimal rendering of numbers, as JavaScript's template literals print an
 * integral `number`, with the parser that undoes it, and splitting a string
 * at the first occurrence of a separator.
 */
module Text {
  import opened Wrappers

  predicate IsDigit(c: char) {
    '0' <= c <= '9'
  }

  predicate AllDigits(s: string) {
    forall i :: 0 <= i < |s| ==> IsDigit(s[i])
  }

  function DigitChar(d: nat): (c: char)
    requires d < 10
    ensures IsDigit(c) && c as int - '0' as int == d
  {
    (48 + d) as char
  }

  /** `${n}` for a non-negative integer below 10^21: its digits, most significant first, no padding. */
  function NatToDecimal(n: nat): (s: string)
    ensures |s| >= 1 && AllDigits(s)
    ensures |s| > 1 ==> s[0] != '0'
    decreases n
  {
    if n < 10 then [DigitChar(n)] else NatToDecimal(n / 10) + [DigitChar(n % 10)]
  }

  /** `${i}` for any integer below 10^21 in magnitude: a minus sign before a negative value. */
  function IntToDecimal(i: int): (s: string)
    ensures |s| >= 1
    ensures ' ' !in s
  {
    if i < 0 then "-" + NatToDecimal(-i) else NatToDecimal(i)
  }

  /** Value of a string of decimal digits. */
  function ParseDecimal(s: string): nat
    requires AllDigits(s)
    decreases |s|
  {
    if |s| == 0 then 0
    else ParseDecimal(s[..|s| - 1]) * 10 + (s[|s| - 1] as int - '0' as int)
  }

  /** Inverse of IntToDecimal: an optional minus sign and a non-empty digit string. */
  function ParseInt(s: string): Option<int> {
    if |s| >= 2 && s[0] == '-' && AllDigits(s[1..]) then
      var v: int := ParseDecimal(s[1..]); Some(-v)
    else if |s| >= 1 && AllDigits(s) then Some(ParseDecimal(s))
    else None
  }

  lemma {:induction false} DecimalRoundTrip(n: nat)
    ensures ParseDecimal(NatToDecimal(n)) == n
    decreases n
  {
    if n >= 10 {
      var s := NatToDecimal(n);
      DecimalRoundTrip(n / 10);
      assert s[..|s| - 1] == NatToDecimal(n / 10);
    }
  }

  /** Different numbers never print alike. */
  lemma DecimalInjective(a: nat, b: nat)
    requires NatToDecimal(a) == NatToDecimal(b)
    ensures a == b
  {
    DecimalRoundTrip(a);
    DecimalRoundTrip(b);
  }

  lemma IntRoundTrip(i: int)
    ensures ParseInt(IntToDecimal(i)) == Some(i)
  {
    if i < 0 {
      var d := NatToDecimal(-i);
      var s := "-" + d;
      assert IntToDecimal(i) == s;
      assert s[1..] == d;
      DecimalRoundTrip(-i);
      assert ParseDecimal(s[1..]) == -i;
    } else {
      var s := NatToDecimal(i);
      assert IntToDecimal(i) == s;
      assert IsDigit(s[0]);
      DecimalRoundTrip(i);
    }
  }

  /** Index of the first `c` in `s`, or |s| when there is none. */
  function IndexOf(s: string, c: char): (k: nat)
    ensures k <= |s|
    ensures k < |s| ==> s[k] == c
    ensures forall j :: 0 <= j < k ==> s[j] != c
    decreases |s|
  {
    if |s| == 0 then 0 else if s[0] == c then 0 else 1 + IndexOf(s[1..], c)
  }

  /** The text before the first `c` and the text after it; None when `c` does not occur. */
  function SplitFirst(s: string, c: char): Option<(string, string)> {
    var k := IndexOf(s, c);
    if k < |s| then Some((s[..k], s[k + 1..])) else None
  }

  /** Splitting undoes a join whose left part does not contain the separator. */
  lemma SplitJoin(a: string, c: char, b: string)
    requires c !in a
    ensures SplitFirst(a + [c] + b, c) == Some((a, b))
  {
    var s := a + [c] + b;
    var k := IndexOf(s, c);
    assert s[|a|] == c;
    assert forall j :: 0 <= j < |a| ==> s[j] == a[j];
    assert k == |a|;
    assert s[..k] == a;
    assert s[k + 1..] == b;
  }

  /** Two joins around the same separator, neither left part containing it, are equal only part by part. */
  lemma JoinInjective(a1: string, b1: string, a2: string, b2: string, c: char)
    requires c !in a1 && c !in a2
    requires a1 + [c] + b1 == a2 + [c] + b2
    ensures a1 == a2 && b1 == b2
  {
    SplitJoin(a1, c, b1);
    SplitJoin(a2, c, b2);
  }
}

=== FILE: usage_limiter.dfy ===
/**
 * The daily usage limiter for automatic AI calls (src/lib/server/ai.ts).
 *
 * The process keeps, per model, a cache entry {date, rowId} naming today's
 * usage row. The gate refreshes that entry when the date has changed, then
 * asks the store for a bounded increment of the row's `uses` column with
 * ceiling daily limit + 1; a refused increment closes the gate. A companion
 * operation adds an unbounded +1 to the cached row.
 */
module UsageLimiter {
  import opened Wrappers
  import Text
  import Store

  datatype Model = Flash | Pro

  function ModelName(m: Model): string {
    match m
    case Flash => "gemini-2.5-flash"
    case Pro => "gemini-2.5-pro"
  }

  /** AUTO_GENERATION_DAILY_LIMITS. */
  function DailyLimit(m: Model): nat {
    match m
    case Flash => 110
    case Pro => 20
  }

  /** The ceiling handed to the bounded increment. */
  function GateMax(m: Model): nat {
    DailyLimit(m) + 1
  }

  datatype CacheEntry = CacheEntry(date: string, rowId: nat)

  /** A row of the AI-usages table. */
  datatype UsageRow = UsageRow(modelName: string, date: string, uses: int)

  /** The process-wide cache together with the usage table it points into. */
  datatype Limiter = Limiter(cache: map<Model, CacheEntry>, rows: seq<UsageRow>)

  /** `toISOString().split('T')[0]`: the text before the first 'T' (all of it when there is none). */
  function DateKey(iso: string): (day: string)
    ensures |day| <= |iso| && day == iso[..|day|]
    ensures 'T' !in day
    ensures |day| < |iso| ==> iso[|day|] == 'T'
  {
    iso[..Text.IndexOf(iso, 'T')]
  }

  /** For a UTC timestamp "YYYY-MM-DDTHH:mm:ss.sssZ" the key is its calendar-date part. */
  lemma DateKeyOfTimestamp(day: string, time: string)
    requires 'T' !in day
    ensures DateKey(day + "T" + time) == day
  {
    Text.SplitJoin(day, 'T', time);
  }

  predicate IsUsageOf(row: UsageRow, m: Model, date: string) {
    row.modelName == ModelName(m) && row.date == date
  }

  /** getFirstRow(aiUsages, [modelName = .., date = ..]). */
  function FindUsage(rows: seq<UsageRow>, m: Model, date: string): Option<nat> {
    Store.FirstIndex(rows, (r: UsageRow) => IsUsageOf(r, m, date))
  }

  /** Every cache entry names an existing usage row of its model and date. */
  ghost predicate Valid(st: Limiter) {
    forall m :: m in st.cache ==>
      st.cache[m].rowId < |st.rows| && IsUsageOf(st.rows[st.cache[m].rowId], m, st.cache[m].date)
  }

  predicate IsFresh(st: Limiter, m: Model, today: string) {
    m in st.cache && st.cache[m].date == today
  }

  /** The first half of the gate: rebuild the model's entry when its date is not today. */
  function Refresh(st: Limiter, m: Model, today: string): (r: Limiter)
    ensures IsFresh(r, m, today)
    ensures IsFresh(st, m, today) ==> r == st
    ensures !IsFresh(st, m, today) && FindUsage(st.rows, m, today).Some? ==>
      r.rows == st.rows && r.cache[m].rowId == FindUsage(st.rows, m, today).value
    ensures !IsFresh(st, m, today) && FindUsage(st.rows, m, today).None? ==>
      r.rows == st.rows + [UsageRow(ModelName(m), today, 0)] && r.cache[m].rowId == |st.rows|
    ensures forall other :: other != m ==>
      (other in r.cache <==> other in st.cache) && (other in st.cache ==> r.cache[other] == st.cache[other])
    ensures Valid(st) ==> Valid(r)
  {
    if IsFresh(st, m, today) then st
    else
      var dropped := st.cache - {m};
      match FindUsage(st.rows, m, today)
      case Some(i) => Limiter(dropped[m := CacheEntry(today, i)], st.rows)
      case None =>
        Limiter(dropped[m := CacheEntry(today, |st.rows|)], st.rows + [UsageRow(ModelName(m), today, 0)])
  }

  /** incrementRowColumn with a ceiling: refused when the row is missing or the new value would pass `max`. */
  function IncrementBounded(rows: seq<UsageRow>, id: nat, max: int): Option<seq<UsageRow>> {
    if id < |rows| && rows[id].uses + 1 <= max then Some(rows[id := rows[id].(uses := rows[id].uses + 1)])
    else None
  }

  /** incrementRowColumn without a ceiling: refused only when the row is missing. */
  function IncrementUnbounded(rows: seq<UsageRow>, id: nat): Option<seq<UsageRow>> {
    if id < |rows| then Some(rows[id := rows[id].(uses := rows[id].uses + 1)]) else None
  }

  datatype Gate = Gate(allowed: bool, state: Limiter)

  /** isAutoGenerationAllowed(m) at the instant `nowIso`. */
  function IsAutoGenerationAllowed(st: Limiter, m: Model, nowIso: string): (g: Gate)
    ensures IsFresh(g.state, m, DateKey(nowIso))
    ensures g.state.cache == Refresh(st, m, DateKey(nowIso)).cache
    ensures var before := Refresh(st, m, DateKey(nowIso)).rows;
            var id := g.state.cache[m].rowId;
            && (g.allowed <==> id < |before| && before[id].uses < GateMax(m))
            && (g.allowed ==> g.state.rows == before[id := before[id].(uses := before[id].uses + 1)])
            && (!g.allowed ==> g.state.rows == before)
    ensures IsFresh(st, m, DateKey(nowIso)) ==> |g.state.rows| == |st.rows|
    ensures Valid(st) ==> Valid(g.state)
  {
    var r := Refresh(st, m, DateKey(nowIso));
    match IncrementBounded(r.rows, r.cache[m].rowId, GateMax(m))
    case None => Gate(false, r)
    case Some(rows) => Gate(true, r.(rows := rows))
  }

  /** The gate never lifts a row past the ceiling: afterwards each row holds at most the larger of its old count and daily limit + 1. */
  lemma GateRespectsCeiling(st: Limiter, m: Model, nowIso: string)
    ensures var after := IsAutoGenerationAllowed(st, m, nowIso).state.rows;
            forall i :: 0 <= i < |after| ==>
              after[i].uses <= (if i < |st.rows| && st.rows[i].uses > GateMax(m) then st.rows[i].uses else GateMax(m))
  {
    var today := DateKey(nowIso);
    var r := Refresh(st, m, today);
    var after := IsAutoGenerationAllowed(st, m, nowIso).state.rows;
    forall i | 0 <= i < |after|
      ensures after[i].uses <= (if i < |st.rows| && st.rows[i].uses > GateMax(m) then st.rows[i].uses else GateMax(m))
    {
      if i < |st.rows| {
        assert r.rows[i] == st.rows[i];
      }
    }
  }

  /** incrementAIGenerationCount(m): +1 on the cached row, whatever its date; nothing without a cache entry. */
  function IncrementAIGenerationCount(st: Limiter, m: Model): (r: Limiter)
    ensures r.cache == st.cache
    ensures m !in st.cache ==> r == st
    ensures m in st.cache && st.cache[m].rowId < |st.rows| ==>
      var id := st.cache[m].rowId;
      |r.rows| == |st.rows| && r.rows[id].uses == st.rows[id].uses + 1 &&
      forall i :: 0 <= i < |st.rows| && i != id ==> r.rows[i] == st.rows[i]
    ensures m in st.cache && st.cache[m].rowId >= |st.rows| ==> r == st
    ensures Valid(st) ==> Valid(r)
  {
    if m !in st.cache then st
    else match IncrementUnbounded(st.rows, st.cache[m].rowId)
      case None => st
      case Some(rows) => st.(rows := rows)
  }

  datatype Tally = Tally(allowed: nat, state: Limiter)

  /** `n` consecutive gate calls on the same day. */
  function RunGate(st: Limiter, m: Model, nowIso: string, n: nat): Tally
    decreases n
  {
    if n == 0 then Tally(0, st)
    else
      var g := IsAutoGenerationAllowed(st, m, nowIso);
      var rest := RunGate(g.state, m, nowIso, n - 1);
      Tally(rest.allowed + (if g.allowed then 1 else 0), rest.state)
  }

  function Min(a: int, b: int): int {
    if a <= b then a else b
  }

  /**
   * With today's row cached at count u (at most the ceiling), n further calls
   * let exactly min(n, ceiling - u) through, and the row ends at u plus that.
   */
  lemma {:induction false} FreshAllowance(st: Limiter, m: Model, nowIso: string, n: nat)
    requires IsFresh(st, m, DateKey(nowIso))
    requires st.cache[m].rowId < |st.rows|
    requires 0 <= st.rows[st.cache[m].rowId].uses <= GateMax(m)
    ensures var t := RunGate(st, m, nowIso, n);
            var id := st.cache[m].rowId;
            var u := st.rows[id].uses;
            && t.allowed == Min(n, GateMax(m) - u)
            && IsFresh(t.state, m, DateKey(nowIso)) && t.state.cache[m].rowId == id
            && |t.state.rows| == |st.rows|
            && t.state.rows[id].uses == u + t.allowed
    decreases n
  {
    if n > 0 {
      var g := IsAutoGenerationAllowed(st, m, nowIso);
      FreshAllowance(g.state, m, nowIso, n - 1);
    }
  }

  /**
   * On a day with no usage row yet for the model, n calls let exactly
   * min(n, daily limit + 1) through: 111 for gemini-2.5-flash, 21 for gemini-2.5-pro.
   */
  lemma DailyAllowance(st: Limiter, m: Model, nowIso: string, n: nat)
    requires !IsFresh(st, m, DateKey(nowIso))
    requires FindUsage(st.rows, m, DateKey(nowIso)).None?
    ensures RunGate(st, m, nowIso, n).allowed == Min(n, GateMax(m))
  {
    if n > 0 {
      var g := IsAutoGenerationAllowed(st, m, nowIso);
      var id := g.state.cache[m].rowId;
      assert id == |st.rows| && g.allowed && g.state.rows[id].uses == 1;
      FreshAllowance(g.state, m, nowIso, n - 1);
    }
  }

  /**
   * Only the flash gate is ever run, and it never caches a pro entry, so the
   * pro `incrementAIGenerationCount` that follows a generation changes nothing.
   */
  lemma {:induction false} FlashGateLeavesProTally(st: Limiter, nowIso: string, n: nat)
    requires Pro !in st.cache
    ensures var s := RunGate(st, Flash, nowIso, n).state;
            Pro !in s.cache && IncrementAIGenerationCount(s, Pro) == s
    decreases n
  {
    if n > 0 {
      var g := IsAutoGenerationAllowed(st, Flash, nowIso);
      assert Pro !in g.state.cache;
      FlashGateLeavesProTally(g.state, nowIso, n - 1);
    }
  }
}

=== FILE: wrappers.dfy ===
/** Failure-compatible wrappers shared by every module of the model. */
module Wrappers {

  /** A value that may be absent: JavaScript's `undefined`/`null`, or a lookup that found nothing. */
  datatype Option<+T> = None | Some(value: T)

  /** A value or an error: an exception the source raises is an `Err`. */
  datatype Result<+T, +E> = Ok(value: T) | Err(error: E)
}
